=== FILE: README.md ===
# momepy `elements.py`: the sequential rules, modelled in Dafny

`momepy/elements.py` turns building footprints, a street network and a
built-up area into morphological elements: tessellation cells, blocks and
street edges. Most of the file drives a geometry engine. Between those calls
sit small deterministic rules. This project models those rules over
mathematical reals and proves what they guarantee. Every geometric primitive
the rules consult is a parameter: intersection, extrapolation, touching,
crossing a building, area and shared-boundary length.

Modules:

- `Geometry` (`geometry.dfy`): points, two-point segments, R-tree boxes
  (left, bottom, right, top), squared distance, and the bounds of a polyline.
- `Seqs` (`seqs.dfy`): order-preserving filter, flattening, reversal, and
  the keys of a dict filled from a list. Also first-occurrence arg-min/arg-max, which is the tie-break Python's
  `min`/`max` apply to the items of a dict filled in index order.
- `NearestStreet` (`nearest_street.dfy`): the `street_edges` helpers.
  - `get_distance` is point-to-segment projection with clamping.
  - `get_rtree` cuts polylines into numbered, boxed two-point items.
  - `get_solution` scans each centroid's box hits and keeps the nearest one.
    Ties go to the later hit, and no hit gives the `(0, 0)` sentinel.
  - The dict it fills keeps its keys in first-insertion order, and
    `street_edges` pairs its n-th entry with the n-th building. That pairing
    goes wrong when two centroids coincide (see Findings). A pairing by
    centroid is proved right.
- `Snapping` (`snapping.dfy`): `snap_street_network_edge`.
  - The four-way split on which ends of a segment are joined.
  - `extend_line` and `extend_line_edge`: the probe base, collecting
    intersection points, picking the nearest, the building veto, and the
    edge fallback taken only when the street probe met nothing.
  - The loop over all segments, whose writes later segments see.
- `Tessellation` (`tessellation.dfy`): the Voronoi ridge filter, `pointize`,
  the unjoined-cell vote loop, and keeping the largest part of a clipped cell.
- `Frames` (`frames.dfy`): `multi2single` and the 1..n id-numbering loops.
- `EdgeKeys` (`edge_keys.dfy`): the `mergeID` key that `street_edges`
  dissolves cells by. As written it is not injective (see Findings). A
  corrected key is proved injective.
- `Results` (`results.dfy`): `Result` and `Option`. A Python exception on a
  path the source does not guard becomes a `Failure` naming its cause.

Distances are compared squared throughout. `sqrt` is monotone, so each
comparison in the source, such as `d >= new_d`, orders candidates exactly as
the squared comparison does. `INFTY` is therefore compared as `INFTY²`.

Two behaviours of the code are worth stating plainly:

- The unjoined-cell vote breaks ties by the first-inserted neighbour id
  (Python's `max` over dict items), not by the smallest id.
- The vote loop writes each assigned id into the table it reads. A later
  unjoined cell therefore sees the ids given to earlier ones
  (`Tessellation.Snapshot`).

## Model

| member | source | states |
|---|---|---|
| Geometry.SegmentBox | momepy/elements.py:688-689 | the box (min, min, max, max) of two points covers both and lies inside every box that covers both |
| Geometry.Bounds | momepy/elements.py:465 | the bounds `network.sindex` stores for a polyline (queried at lines 374, 484 and 489) cover every vertex and are the smallest box that does |
| Geometry.MeetsPointBox | momepy/elements.py:484-487 | querying the index with a point's bounds finds exactly the boxes that cover the point |
| Seqs.FirstArgMax | momepy/elements.py:277 | `max` over a dict's items returns a maximal entry, and every entry inserted before it is strictly smaller |
| Seqs.FirstArgMin | momepy/elements.py:396 | `min` over a dict's items returns a minimal entry, and every entry inserted before it is strictly larger |
| Seqs.Filter | momepy/elements.py:201 | a list comprehension with a condition keeps only elements of the input that satisfy it, and is never longer |
| Seqs.FilterCount | momepy/elements.py:201 | the comprehension keeps each satisfying element exactly as often as it occurs and drops every other |
| Seqs.FilterAppend | momepy/elements.py:201 | the comprehension preserves order: filtering a concatenation concatenates the filtered parts |
| Seqs.ReverseReverse | momepy/elements.py:503 | `list.reverse()` undoes itself: reversing twice gives the original list |
| Seqs.ReverseMultiset | momepy/elements.py:503 | `list.reverse()` keeps every vertex, as often as it occurs |
| NearestStreet.Project | momepy/elements.py:660-678 | with t the dot product of a-b and c-b divided by the squared length of c-b, the result is t(c-b)+b when 0<t<1, b when t<=0, c when t>=1; the distance returned is the distance to the returned point; b = c is excluded because of the division at line 667 |
| NearestStreet.ProjectOnSegment | momepy/elements.py:671-678 | the returned point lies on segment b-c, at some parameter in [0, 1] |
| NearestStreet.ProjectIsNearest | momepy/elements.py:663-670 | no point of segment b-c is nearer to a than the returned one (the Pythagoras argument of the comments, proved) |
| NearestStreet.SqDistAlong | momepy/elements.py:666-673 | the squared distance from a to the point at parameter u is a quadratic in u: the squared distance to b, minus 2u times the dot product of a-b and c-b, plus u² times the squared length of c-b |
| NearestStreet.ClampIsNearest | momepy/elements.py:671-678 | the point at the clamped parameter is at least as near as the point at any parameter in [0, 1] |
| NearestStreet.BuildItems | momepy/elements.py:680-692 | a polyline of k vertices yields k-1 items; item i of a line is (l[i], l[i+1]) with that line's name and network id and the min/max box of the two points, which covers both; indices run 0, 1, 2, ... across all lines |
| NearestStreet.OffsetGrows | momepy/elements.py:682-691 | the running index of a later line starts after every item of the earlier lines |
| NearestStreet.Query | momepy/elements.py:697-698 | the box query returns only items whose box meets the search square |
| NearestStreet.QueryComplete | momepy/elements.py:697-698 | the box query misses no item whose box meets the search square |
| NearestStreet.BestIsLowerBound | momepy/elements.py:699-704 | the distance the scan ends with is at most INFTY and at most every hit's distance, and it is either INFTY or some hit's distance |
| NearestStreet.BestSubset | momepy/elements.py:699-704 | scanning more hits never yields a larger best distance, whatever their order |
| NearestStreet.WiderWindowNoWorse | momepy/elements.py:697-704 | enlarging MIN_SIZE never increases the nearest distance found |
| NearestStreet.NearestHit | momepy/elements.py:699-706 | with `d >= new_d`, the chosen hit is at least as near as every hit and strictly nearer than every later one (ties go to the last); nothing is chosen exactly when every hit is farther than INFTY; a zero-length hit raises |
| NearestStreet.AssignOne | momepy/elements.py:696-709 | whatever order the index yields the hits in, the stored value is a nearest candidate's (name, segment, network id), or the (0, 0) sentinel exactly when no candidate is within INFTY; it fails exactly when a candidate has zero length |
| NearestStreet.Lookup | momepy/elements.py:707 | `result[p]` is the value of an entry whose key is p |
| NearestStreet.Store | momepy/elements.py:707-709 | `result[p] = s`: a key already present keeps its place, a new key goes last, the keys stay distinct, p now maps to s and every other key keeps its value |
| NearestStreet.StoreJustified | momepy/elements.py:707-709 | storing a justified assignment for one point keeps every entry of the dict justified |
| NearestStreet.FillStep | momepy/elements.py:695-709 | storing the next centroid's justified assignment leaves the dict filled from one more centroid: keys in first-insertion order, every entry justified |
| NearestStreet.SolveStep | momepy/elements.py:696-709 | one turn of the loop fails exactly when the centroid's square holds a zero-length piece, and otherwise extends the filled dict by that centroid |
| NearestStreet.Solve | momepy/elements.py:694-722 | the dict's keys, in insertion order, are the distinct centroids in order of first occurrence, each with its nearest-candidate assignment; it fails exactly when some centroid's square holds a zero-length piece |
| NearestStreet.PairByPointJustified | momepy/elements.py:746-753 | pairing each building with the entry of its own centroid gives every building an assignment justified for that centroid |
| NearestStreet.PositionPairingDistinct | momepy/elements.py:746-753 | when no two centroids coincide, pairing the n-th dict entry with building n is the pairing by centroid |
| NearestStreet.PositionPairingDrops | momepy/elements.py:746-753 | when two centroids coincide, the dict has fewer entries than there are buildings and the inner merge on `idx` drops the last building |
| NearestStreet.DuplicateCentroidShifts | momepy/elements.py:746-753 | for centroids p, p, q the second building receives the entry stored for q and the third building receives none |
| Snapping.ProbeBase | momepy/elements.py:368-371 | the probe continues exactly l[-3:-1] when the last two points are within 0.001, and exactly l[-2:] otherwise; a two-point line whose points are within 0.001 has no such pair and fails |
| Snapping.ProbeOf | momepy/elements.py:368-372 | the probe starts at the second point of the base pair and ends at the extrapolated tip |
| Snapping.PointsIgnoreRest | momepy/elements.py:385-387 | a MultiPoint contributes its first two points only; its further points are never offered |
| Snapping.FirstNearest | momepy/elements.py:389-399 | the point taken is a candidate nearest the line's end, the first such on ties |
| Snapping.Accept | momepy/elements.py:401-412 | the point is appended to the working line in every case; the network row becomes the grown line only when the grown line crosses no building, and no other row changes |
| Snapping.Candidates | momepy/elements.py:374-376 | the candidate rows are exactly the rows other than the segment's own whose indexed box meets the probe's box |
| Snapping.CollectedMember | momepy/elements.py:381-387 | a point is in `true_int` exactly when one of the candidate intersections contributes it |
| Snapping.AllMissedMeets | momepy/elements.py:379 | `possible_intersections.any()` is false exactly when every candidate row misses the probe |
| Snapping.OfferedCollected | momepy/elements.py:381-387 | the collected points are exactly the points some candidate row's intersection offers |
| Snapping.ExtendStreet | momepy/elements.py:367-414 | the street probe fails with a short probe exactly when the probe base does; when it extends, the working line grows by one point and only the segment's own row may change, to the grown line, which crosses no building |
| Snapping.ExtendStreetMisses | momepy/elements.py:379-414 | `extend_line` returns False exactly when no candidate row meets the probe |
| Snapping.ExtendStreetFails | momepy/elements.py:379-399 | the source's indexing of an empty `true_int` fails exactly when some row meets the probe but none offers a point |
| Snapping.ExtendStreetNearest | momepy/elements.py:389-401 | an extension appends an offered point at least as near the line's end as every other offered point |
| Snapping.ExtendEdge | momepy/elements.py:417-461 | the edge probe leaves everything unchanged on an empty or mixed intersection, fails on a collinear overlap, and otherwise appends the nearest point of the intersection under the building veto |
| Snapping.ExtendEnd | momepy/elements.py:499-500 | one end: a failed street probe fails the end, a missed one gives the edge probe's outcome, an extension is the outcome; it only grows the working line and only touches the segment's own row |
| Snapping.EdgeUsedWhenStreetMissed | momepy/elements.py:499-500 | when no candidate street meets the probe, the end is extended towards the built-up edge exactly as `extend_line_edge` would |
| Snapping.StreetUsedWhenOffered | momepy/elements.py:499-500 | once some candidate street offers a point, the end succeeds with an offered point nearest the line's end appended under the building veto |
| Snapping.EdgeUnusedWhenStreetMet | momepy/elements.py:499-500 | when the street probe met something, including a point the building check then vetoed, the built-up edge plays no part |
| Snapping.OwnRowIsCandidate | momepy/elements.py:374-376 | the probe from either end starts inside the segment's own indexed box, so dropping the segment's own label from the index's answer never fails |
| Snapping.JoinedIgnoresOwnRow | momepy/elements.py:484-492 | the segment never counts as its own neighbour: its own current geometry does not affect whether its ends are joined |
| Snapping.JoinedElsewhere | momepy/elements.py:484-492 | whether an end is joined depends only on the other rows |
| Snapping.SnapRow | momepy/elements.py:477-514 | both ends joined: the row succeeds and nothing changes; only the end dangling: the outcome is that of one end probe on the original line (the original or the original plus one point); only the start dangling: that of one end probe on the reversed line; both dangling: the end probe on the original, then on the reverse of the working line it left, failing when either fails; only the segment's own row changes, to a line that crosses no building |
| Snapping.BothEndsExtend | momepy/elements.py:507-512 | both ends dangling: whatever the two probes store, the row keeps the original's vertices and gains at most one point per end (the order of the probes is stated by `SnapRow` and `VetoedPointKept`) |
| Snapping.VetoedPointKept | momepy/elements.py:507-512 | both ends dangling and the first probe appended p, appended to the working line at line 401 whether the building check then stored it or not: the row is what the first probe left, or it starts with p, then the reversed original, then one more point |
| Snapping.Snap | momepy/elements.py:475-516 | over the whole pass, every row keeps its original vertices and gains at most one point per end, every changed row crosses no building, and every row is what its own turn made of it, seeing the earlier rows as they ended and the later rows as they began; a failing pass stops at a turn that fails after every earlier turn succeeded, with that turn's error |
| Tessellation.FiniteRidges | momepy/elements.py:201 | only ridges without the vertex -1 are kept, each from the input |
| Tessellation.FiniteRidgesExact | momepy/elements.py:201 | every finite ridge is kept as often as it occurs, and no ridge with -1 is kept |
| Tessellation.FiniteRidgesInOrder | momepy/elements.py:201 | the filter keeps the ridges' order |
| Tessellation.Pointize | momepy/elements.py:223-239 | a LineString boundary gives its vertices; a MultiLineString gives every vertex of every line and nothing else, with the total count; any other boundary type raises |
| Tessellation.PointizeInOrder | momepy/elements.py:226-230 | the vertices come line after line, in order |
| Tessellation.NeighbourIds | momepy/elements.py:262-266 | the ids kept are exactly those of neighbours that carry one; NaN is dropped |
| Tessellation.NeighbourIdsAppend | momepy/elements.py:264-266 | the ids follow the neighbour list in order, with repeats kept: more neighbours append their ids |
| Tessellation.NeighbourIdsSingle | momepy/elements.py:264-266 | one neighbour contributes its id, or nothing when the id is NaN |
| Seqs.Dedup | momepy/elements.py:269-275 | the dict keys hold each neighbour id once, in order of first insertion, and are never more than the ids |
| Seqs.IndexOf | momepy/elements.py:269-275 | the insertion position of a key is its first occurrence |
| Seqs.DedupSnoc | momepy/elements.py:707 | filling a dict from one more element adds it as the last key unless it is already a key |
| Seqs.DedupDistinct | momepy/elements.py:695-707 | filling a dict from elements without repeats keeps every element as a key at its own position |
| Seqs.DedupShorter | momepy/elements.py:695-707 | filling a dict from elements with a repeat gives fewer keys than elements |
| Tessellation.Vote | momepy/elements.py:261-277 | the id given to an unjoined cell is one of its neighbours' ids |
| Tessellation.VoteFails | momepy/elements.py:266-277 | `max` of the empty dict raises exactly when no neighbour carries an id |
| Tessellation.VoteFromNeighbour | momepy/elements.py:262-277 | the winning id is carried by one of the listed neighbours |
| Tessellation.VoteIsMaximal | momepy/elements.py:270-277 | no neighbour id shares more boundary with the cell than the winner |
| Tessellation.VoteFirstOnTies | momepy/elements.py:277 | every id inserted before the winner shares strictly less boundary |
| Tessellation.ScoreOnlyCountsId | momepy/elements.py:271-275 | a score sums only the cells that carry that id |
| Tessellation.SnapshotEnds | momepy/elements.py:261-277 | the table the loop reads starts as the join left it and ends as the loop's result |
| Tessellation.StrandedIffVoteFails | momepy/elements.py:261-277 | when the loop reaches an unjoined cell, its vote fails exactly when every neighbour is unjoined and not yet reached |
| Tessellation.SnapshotIgnoresLater | momepy/elements.py:277 | assigning a cell does not change what earlier cells saw |
| Tessellation.ResolveUnjoined | momepy/elements.py:261-277 | the loop fails exactly when some cell is stranded; otherwise every cell has an id, joined cells keep theirs, and each unjoined cell holds the vote of the table as the loop reached it |
| Tessellation.KeepLargest | momepy/elements.py:316-324 | a multipart clip keeps a part of maximal area, the first index on ties, and raises on zero parts; any other clip is kept as it is |
| Tessellation.CutCells | momepy/elements.py:314-324 | each selected cell becomes its kept part, every other cell is unchanged, and the loop fails exactly when some selected cell's clip has no part |
| Frames.PolygonRows | momepy/elements.py:154 | the Polygon rows are selected, as many as there are |
| Frames.PolygonRowsFrom | momepy/elements.py:154 | every Polygon row is selected, and nothing else is |
| Frames.MultiToSingle | momepy/elements.py:153-164 | output rows = Polygon rows + sum of parts of MultiPolygon rows; the Polygon rows come first in order; every output row is single-part and comes from an input row with its attributes; every part is present; other geometry types are dropped; zero parts raises (the same function recurs at 549-560 and 768-779); after the Polygon rows come the parts of each MultiPolygon row in row order, each part once, in its order within the row |
| Frames.PartRowsFrom | momepy/elements.py:157-161 | every part of every MultiPolygon row becomes a row with that row's attributes, and every part row comes from an input row with its attributes |
| Frames.NumberRows | momepy/elements.py:566-571 | the row in iteration position k gets id k+1 (the same loop recurs at 596-600 and 784-788) |
| Frames.NumberingContiguous | momepy/elements.py:568-571 | the ids are increasing, hence distinct, and are exactly 1..n |
| EdgeKeys.FloatStr | momepy/elements.py:762 | `str` of a whole float is a run of digits that reads back as the number, then ".0" |
| EdgeKeys.ParseNatStr | momepy/elements.py:762 | the printed digits of a number read back as the number |
| EdgeKeys.MergeIdCollides | momepy/elements.py:761-762 | two different (street, block) pairs get the same `mergeID` |
| EdgeKeys.EdgeKey | momepy/elements.py:761-762 | the corrected key puts a separator right after the printed block id |
| EdgeKeys.EdgeKeyInjective | momepy/elements.py:761-762 | two cells get the same corrected key exactly when street and block agree |

## Left out

- File reading and writing, progress bars, timers and prints: not behaviour.
- The geometry engine is not modelled. This covers buffer, simplify,
  dissolve, unary_union, difference, intersection, exterior, centroid,
  `length`, `area`, scipy's Voronoi, polygonize, ogr densify and the
  quadrat cut. The rules take their answers as parameters: the `Kernel` of
  `Snapping`, and `shared`, `area`, `clip`, `Boundary` and the ridge list
  in `Tessellation`.
- `getExtrapoledLine` (momepy/elements.py:346-364) uses trigonometry with
  1e-6 nudges. It stays the abstract `Kernel.extrapolate`.
- The spatial join, pandas merge/drop/drop_duplicates and `sindex`
  construction are library behaviour. The neighbour lists of the vote loop
  and the hit lists of `get_solution` are inputs. The hits are constrained
  to be the box-query matches in any order.
- The snapping index returns its matches in ascending row order
  (`Snapping.Candidates`). Any other order changes only which of several
  equally near points is taken.
- `Seqs.FirstArgMin` and `Seqs.FirstArgMax` rely on the dict keys being
  inserted in index order, which the source guarantees.
- IEEE floating point is not modelled: coordinates and lengths are reals,
  and distances are compared squared.
- NearestStreet.Project: the division by zero on a zero-length segment is
  not reproduced inside the function; it requires b != c. `NearestHit`,
  `AssignOne` and `Solve` model the raise as a `ZeroLengthPiece` failure.
- Network rows are LineStrings of at least two vertices (`Snapping.Snap`
  requires it). A multi-part row raises at `list(line.coords)`
  (momepy/elements.py:478) and an empty row raises at line 480. Neither
  error path is modelled.
- `Snapping.ExtendEdge` takes an empty intersection with the built-up edge to
  be typed 'GeometryCollection', as older GEOS versions return it
  (momepy/elements.py:428). With GEOS 3.9 and later the empty result may be
  typed `LineString`, and line 448 then raises an IndexError. The model keeps
  the older engine's typing.
- The `length < 1000000` filter on Voronoi polygons (momepy/elements.py:215),
  `buffer(0)` and the exterior/Polygon re-closing of blocks and edges are
  geometry-engine calls on the cells, not selection rules.
- EdgeKeys.FloatStr: prints whole numbers below 10^16 only. Above that,
  Python's `str(float)` switches to exponent notation. Block ids come from
  a counter, so this does not arise.
- The street name of `mergeID` is a string in the model. The `(0, 0)`
  sentinel of an unassigned building prints its street as "0".
- `pointize` compares type names with `is` (momepy/elements.py:225, 231).
  This is taken as string equality, which is what it means when CPython
  interns the literal.
- Buildings carry the index labels 0..n-1 in the order their centroids are
  listed (`NearestStreet.PairByPosition`), which holds for a frame read from
  a file. The later merge with the tessellation on the unique id is pandas
  behaviour and is not modelled.
- The vote reads `voronoi_with_id.iloc[n]` and writes
  `voronoi_with_id.loc[idx]`, which agree only on a default 0..n-1 index.
  The model uses positions for both.

## Findings

| source | as written | input that shows it | evidently intended | confidence | as-written member | corrected member |
|---|---|---|---|---|---|---|
| momepy/elements.py:746-753 | the n-th entry of the centroid dict is paired with the building labelled n | two buildings with the same centroid p followed by one with centroid q: the dict has two entries, the second building receives q's street and the third building is dropped by the inner merge | each building receives the street assigned to its own centroid | not executed | NearestStreet.DuplicateCentroidShifts | NearestStreet.PairByPointJustified |
| momepy/elements.py:761-762 | `mergeID = str(street) + str(block)` joins the two parts with no separator | street "Route 1" in block 23.0 and street "Route 12" in block 3.0 both give "Route 123.0", so their cells are dissolved into one street edge | one key per (street, block) pair | not executed | EdgeKeys.MergeIdCollides | EdgeKeys.EdgeKeyInjective |

=== FILE: edge_keys.dfy ===
/** The key `street_edges` dissolves tessellation cells by: one street edge
    per (street name, block id) pair. Block ids are whole numbers held in a
    float column, so `str()` prints them with a trailing ".0". */
module EdgeKeys {

  predicate IsDigit(ch: char)
  {
    '0' <= ch <= '9'
  }

  function Digit(d: nat): (ch: char)
    requires d < 10
    ensures IsDigit(ch)
  {
    "0123456789"[d]
  }

  function DigitValue(ch: char): nat
    requires IsDigit(ch)
  {
    (ch as int) - ('0' as int)
  }

  /** Decimal digits of `n`, without leading zeros. */
  function NatStr(n: nat): (s: string)
    ensures |s| > 0
    ensures forall i :: 0 <= i < |s| ==> IsDigit(s[i])
  {
    if n < 10 then [Digit(n)] else NatStr(n / 10) + [Digit(n % 10)]
  }

  /** Reads a string of decimal digits back as a number. */
  function ParseNat(s: string): nat
    requires forall i :: 0 <= i < |s| ==> IsDigit(s[i])
  {
    if |s| == 0 then 0
    else
      assert forall i :: 0 <= i < |s| - 1 ==> s[..|s| - 1][i] == s[i];
      ParseNat(s[..|s| - 1]) * 10 + DigitValue(s[|s| - 1])
  }

  lemma DigitRoundTrip(d: nat)
    requires d < 10
    ensures DigitValue(Digit(d)) == d
  {
    assert "0123456789"[d] as int - '0' as int == d;
  }

  /** Printing then reading gives the number back. */
  lemma {:induction false} ParseNatStr(n: nat)
    ensures ParseNat(NatStr(n)) == n
  {
    if n < 10 {
      DigitRoundTrip(n);
    } else {
      ParseNatStr(n / 10);
      DigitRoundTrip(n % 10);
      var s := NatStr(n);
      assert s[..|s| - 1] == NatStr(n / 10);
    }
  }

  /** `str(float(b))` for a whole number `b` below 10^16. */
  function FloatStr(b: nat): (s: string)
    ensures forall i :: 0 <= i < |s| ==> IsDigit(s[i]) || s[i] == '.'
    ensures |s| >= 3 && s[|s| - 2..] == ".0"
    ensures forall i :: 0 <= i < |s| - 2 ==> IsDigit(s[i])
    ensures ParseNat(s[..|s| - 2]) == b
  {
    ParseNatStr(b);
    assert (NatStr(b) + ".0")[..|NatStr(b)|] == NatStr(b);
    NatStr(b) + ".0"
  }

  /** The key as written: `str(street) + str(block)`, no separator. */
  function MergeId(street: string, block: nat): string
  {
    street + FloatStr(block)
  }

  /** Two different (street, block) pairs share a key, so their cells are
      dissolved into one street edge: "Route 1" in block 23 and "Route 12"
      in block 3 both give "Route 123.0". */
  lemma MergeIdCollides()
    ensures ("Route 1", 23) != ("Route 12", 3)
    ensures MergeId("Route 1", 23) == MergeId("Route 12", 3)
  {
    assert NatStr(23) == "23" by {
      assert NatStr(2) == "2";
    }
    assert NatStr(3) == "3";
    assert ("Route 1"[6]) != ("Route 12"[6]) || |"Route 1"| != |"Route 12"|;
  }

  /** The corrected key: the block id first, then a separator that cannot
      occur in the printed id, then the street name. */
  function EdgeKey(street: string, block: nat): (k: string)
    ensures |k| > |FloatStr(block)| && k[|FloatStr(block)|] == ';'
  {
    FloatStr(block) + ";" + street
  }

  /** Position of the first character that is not a digit (or the length). */
  function FirstNonDigit(s: string): (k: nat)
    ensures k <= |s|
  {
    if |s| == 0 || !IsDigit(s[0]) then 0 else 1 + FirstNonDigit(s[1..])
  }

  /** After a run of digits, the first non-digit is where the run ends. */
  lemma {:induction false} FirstNonDigitAfter(a: string, x: string)
    requires forall i :: 0 <= i < |a| ==> IsDigit(a[i])
    requires |x| > 0 && !IsDigit(x[0])
    ensures FirstNonDigit(a + x) == |a|
  {
    if |a| > 0 {
      assert (a + x)[1..] == a[1..] + x;
      FirstNonDigitAfter(a[1..], x);
    } else {
      assert a + x == x;
    }
  }

  /** Two printed numbers followed by non-digits agree only if the numbers
      do: the first non-digit marks where each number ends. */
  lemma DigitsPrefix(a: string, x: string, b: string, y: string)
    requires forall i :: 0 <= i < |a| ==> IsDigit(a[i])
    requires forall i :: 0 <= i < |b| ==> IsDigit(b[i])
    requires |x| > 0 && !IsDigit(x[0]) && |y| > 0 && !IsDigit(y[0])
    requires a + x == b + y
    ensures a == b && x == y
  {
    FirstNonDigitAfter(a, x);
    FirstNonDigitAfter(b, y);
    assert a == (a + x)[..|a|] == (b + y)[..|b|] == b;
  }

  /** Cells end in the same street edge exactly when they have the same
      street and the same block. */
  lemma EdgeKeyInjective(s1: string, b1: nat, s2: string, b2: nat)
    ensures EdgeKey(s1, b1) == EdgeKey(s2, b2) <==> s1 == s2 && b1 == b2
  {
    if EdgeKey(s1, b1) == EdgeKey(s2, b2) {
      assert EdgeKey(s1, b1) == NatStr(b1) + (".0;" + s1);
      assert EdgeKey(s2, b2) == NatStr(b2) + (".0;" + s2);
      DigitsPrefix(NatStr(b1), ".0;" + s1, NatStr(b2), ".0;" + s2);
      ParseNatStr(b1);
      ParseNatStr(b2);
      assert s1 == (".0;" + s1)[3..] == (".0;" + s2)[3..] == s2;
    }
  }
}

=== FILE: frames.dfy ===
/** Row bookkeeping shared by `tessellation`, `blocks` and `street_edges`:
    splitting multipart rows into single-part rows (`multi2single`) and
    numbering rows 1..n in iteration order. A row is its non-geometry
    attributes plus a geometry; polygons themselves are left abstract. */
module Frames {
  import opened Results
  import opened Seqs

  /** A row's geometry, by type. */
  datatype Shape<P> = Polygon(p: P) | MultiPolygon(parts: seq<P>) | OtherShape

  datatype Row<A, P> = Row(attrs: A, shape: Shape<P>)

  /** An output row of `multi2single`: single-part by construction. */
  datatype Single<A, P> = Single(attrs: A, p: P)

  datatype FrameError =
    /** A multipart row with no part: concatenating zero frames raises. */
    | NoPartsToConcat

  /** The Polygon rows, in order (`gpdf[gpdf.geometry.type == 'Polygon']`). */
  function PolygonRows<A, P>(rows: seq<Row<A, P>>): (r: seq<Single<A, P>>)
    ensures |r| == CountPolygons(rows)
  {
    if |rows| == 0 then []
    else
      var init := PolygonRows(rows[..|rows| - 1]);
      var last := rows[|rows| - 1];
      if last.shape.Polygon? then init + [Single(last.attrs, last.shape.p)] else init
  }

  function CountPolygons<A, P>(rows: seq<Row<A, P>>): nat
  {
    if |rows| == 0 then 0
    else CountPolygons(rows[..|rows| - 1]) + (if rows[|rows| - 1].shape.Polygon? then 1 else 0)
  }

  /** Total number of parts of the MultiPolygon rows. */
  function CountParts<A, P>(rows: seq<Row<A, P>>): nat
  {
    if |rows| == 0 then 0
    else
      var last := rows[|rows| - 1];
      CountParts(rows[..|rows| - 1]) + (if last.shape.MultiPolygon? then |last.shape.parts| else 0)
  }

  /** One output row per part, each carrying the parent's attributes. */
  function Explode<A, P>(attrs: A, parts: seq<P>): (r: seq<Single<A, P>>)
    ensures |r| == |parts|
    ensures forall k :: 0 <= k < |parts| ==> r[k] == Single(attrs, parts[k])
  {
    seq(|parts|, k requires 0 <= k < |parts| => Single(attrs, parts[k]))
  }

  /** The rows the MultiPolygon rows give, in row order: the parts of each
      such row in turn, each with that row's attributes. */
  function PartRows<A, P>(rows: seq<Row<A, P>>): (r: seq<Single<A, P>>)
    ensures |r| == CountParts(rows)
  {
    if |rows| == 0 then []
    else
      var last := rows[|rows| - 1];
      PartRows(rows[..|rows| - 1]) + (if last.shape.MultiPolygon? then Explode(last.attrs, last.shape.parts) else [])
  }

  /** `s` comes from `rows`: from a Polygon row as it is, or from a part of
      a MultiPolygon row, with that row's attributes. */
  ghost predicate FromRows<A, P>(rows: seq<Row<A, P>>, s: Single<A, P>)
  {
    exists k :: 0 <= k < |rows| && rows[k].attrs == s.attrs &&
      (rows[k].shape == Polygon(s.p) || (rows[k].shape.MultiPolygon? && s.p in rows[k].shape.parts))
  }

  /** multi2single: the Polygon rows first, in order, then the parts of each
      MultiPolygon row in turn; rows of any other type are dropped, and the
      output is renumbered from 0 (its positions). */
  method MultiToSingle<A, P>(rows: seq<Row<A, P>>) returns (r: Result<seq<Single<A, P>>, FrameError>)
    ensures r.Failure? <==> exists k :: 0 <= k < |rows| && rows[k].shape == MultiPolygon([])
    ensures r.Success? ==> |r.value| == CountPolygons(rows) + CountParts(rows)
    ensures r.Success? ==> r.value[..CountPolygons(rows)] == PolygonRows(rows)
    ensures r.Success? ==> r.value[CountPolygons(rows)..] == PartRows(rows)
    ensures r.Success? ==> forall s :: s in r.value ==> FromRows(rows, s)
    ensures r.Success? ==> forall k, j :: 0 <= k < |rows| && rows[k].shape.MultiPolygon? && 0 <= j < |rows[k].shape.parts| ==>
              Single(rows[k].attrs, rows[k].shape.parts[j]) in r.value
  {
    var out := PolygonRows(rows);
    var i := 0;
    while i < |rows|
      invariant i <= |rows|
      invariant out == PolygonRows(rows) + PartRows(rows[..i])
      invariant forall k :: 0 <= k < i ==> rows[k].shape != MultiPolygon([])
    {
      assert rows[..i + 1][..i] == rows[..i];
      var row := rows[i];
      if row.shape.MultiPolygon? {
        if |row.shape.parts| == 0 {
          return Failure(NoPartsToConcat);
        }
        out := out + Explode(row.attrs, row.shape.parts);
      }
      i := i + 1;
    }
    assert rows[..i] == rows;
    PolygonRowsFrom(rows);
    PartRowsFrom(rows);
    assert out[..CountPolygons(rows)] == PolygonRows(rows);
    assert out[CountPolygons(rows)..] == PartRows(rows);
    r := Success(out);
  }

  /** Every part of every MultiPolygon row is a part row, and every part row
      is a part of some MultiPolygon row, with that row's attributes. */
  lemma {:induction false} PartRowsFrom<A, P>(rows: seq<Row<A, P>>)
    ensures forall s :: s in PartRows(rows) ==> FromRows(rows, s)
    ensures forall k, j :: 0 <= k < |rows| && rows[k].shape.MultiPolygon? && 0 <= j < |rows[k].shape.parts| ==>
              Single(rows[k].attrs, rows[k].shape.parts[j]) in PartRows(rows)
  {
    if |rows| > 0 {
      var init := rows[..|rows| - 1];
      var last := rows[|rows| - 1];
      var more := if last.shape.MultiPolygon? then Explode(last.attrs, last.shape.parts) else [];
      PartRowsFrom(init);
      assert PartRows(rows) == PartRows(init) + more;
      forall s | s in PartRows(rows)
        ensures FromRows(rows, s)
      {
        if s in PartRows(init) {
          var k :| 0 <= k < |init| && init[k].attrs == s.attrs &&
            (init[k].shape == Polygon(s.p) || (init[k].shape.MultiPolygon? && s.p in init[k].shape.parts));
          assert rows[k] == init[k];
        } else {
          var j :| 0 <= j < |more| && more[j] == s;
          assert rows[|rows| - 1].attrs == s.attrs && s.p in rows[|rows| - 1].shape.parts;
        }
      }
      forall k, j | 0 <= k < |rows| && rows[k].shape.MultiPolygon? && 0 <= j < |rows[k].shape.parts|
        ensures Single(rows[k].attrs, rows[k].shape.parts[j]) in PartRows(rows)
      {
        if k < |rows| - 1 {
          assert rows[k] == init[k];
        } else {
          assert more[j] == Single(rows[k].attrs, rows[k].shape.parts[j]);
        }
      }
    }
  }

  /** Every Polygon row is copied, and nothing else is. */
  lemma {:induction false} PolygonRowsFrom<A, P>(rows: seq<Row<A, P>>)
    ensures forall s :: s in PolygonRows(rows) ==> exists k :: 0 <= k < |rows| && rows[k] == Row(s.attrs, Polygon(s.p))
    ensures forall k :: 0 <= k < |rows| && rows[k].shape.Polygon? ==>
              Single(rows[k].attrs, rows[k].shape.p) in PolygonRows(rows)
  {
    if |rows| > 0 {
      var init := rows[..|rows| - 1];
      PolygonRowsFrom(init);
      forall s | s in PolygonRows(rows)
        ensures exists k :: 0 <= k < |rows| && rows[k] == Row(s.attrs, Polygon(s.p))
      {
        if s in PolygonRows(init) {
          var k :| 0 <= k < |init| && init[k] == Row(s.attrs, Polygon(s.p));
          assert rows[k] == init[k];
        } else {
          assert rows[|rows| - 1] == Row(s.attrs, Polygon(s.p));
        }
      }
      forall k | 0 <= k < |rows| && rows[k].shape.Polygon?
        ensures Single(rows[k].attrs, rows[k].shape.p) in PolygonRows(rows)
      {
        if k < |rows| - 1 {
          assert rows[k] == init[k];
        }
      }
    }
  }

  /** The numbering loops (`id = 1; ... id = id + 1`): row k, in iteration
      order, gets id k + 1. */
  method NumberRows<T>(rows: seq<T>) returns (r: seq<(int, T)>)
    ensures |r| == |rows|
    ensures forall k :: 0 <= k < |rows| ==> r[k].1 == rows[k]
    ensures forall k :: 0 <= k < |rows| ==> r[k].0 == k + 1
  {
    r := [];
    var id := 1;
    while |r| < |rows|
      invariant |r| <= |rows| && id == |r| + 1
      invariant forall k :: 0 <= k < |r| ==> r[k] == (k + 1, rows[k])
    {
      r := r + [(id, rows[|r|])];
      id := id + 1;
    }
  }

  /** The ids a numbering handed out. */
  function IdsOf<T>(r: seq<(int, T)>): set<int>
  {
    set k | 0 <= k < |r| :: r[k].0
  }

  /** The ids handed out are increasing, hence distinct, and are exactly 1..n. */
  lemma NumberingContiguous<T>(rows: seq<T>, r: seq<(int, T)>)
    requires |r| == |rows| && forall k :: 0 <= k < |rows| ==> r[k].0 == k + 1
    ensures forall i, j :: 0 <= i < j < |r| ==> r[i].0 < r[j].0
    ensures forall id :: id in IdsOf(r) <==> 1 <= id <= |rows|
  {
    forall id | 1 <= id <= |rows|
      ensures id in IdsOf(r)
    {
      assert r[id - 1].0 == id;
    }
  }
}

=== FILE: geometry.dfy ===
/** Planar points, two-point segments and axis-aligned boxes over the reals.
    Floating-point rounding is not modelled; distances are compared squared,
    which orders them exactly as the square-rooted distances do. */
module Geometry {

  datatype Point = Point(x: real, y: real)

  /** A straight piece between two vertices of a polyline. */
  datatype Segment = Segment(b: Point, c: Point)

  /** A bounding box as the R-tree stores it: left, bottom, right, top. */
  datatype Box = Box(left: real, bottom: real, right: real, top: real)

  function Min(a: real, b: real): real { if a <= b then a else b }

  function Max(a: real, b: real): real { if a <= b then b else a }

  /** Squared Euclidean distance. */
  function SqDist(a: Point, b: Point): real
  {
    (a.x - b.x) * (a.x - b.x) + (a.y - b.y) * (a.y - b.y)
  }

  lemma MulNonNeg(a: real, b: real)
    requires a >= 0.0 && b >= 0.0
    ensures a * b >= 0.0
  {
  }

  lemma SquareNonNeg(d: real)
    ensures d * d >= 0.0
  {
    if d >= 0.0 {
      MulNonNeg(d, d);
    } else {
      MulNonNeg(-d, -d);
    }
  }

  /** A squared distance is never negative. */
  lemma SqDistNonNeg(a: Point, b: Point)
    ensures SqDist(a, b) >= 0.0
  {
    SquareNonNeg(a.x - b.x);
    SquareNonNeg(a.y - b.y);
  }

  /** The point of segment `s` at parameter `u` (b at 0, c at 1). */
  function At(s: Segment, u: real): Point
  {
    Point(s.b.x + u * (s.c.x - s.b.x), s.b.y + u * (s.c.y - s.b.y))
  }

  predicate Covers(box: Box, p: Point)
  {
    box.left <= p.x <= box.right && box.bottom <= p.y <= box.top
  }

  /** Closed boxes intersect when they overlap on both axes (touching counts). */
  predicate Meets(a: Box, b: Box)
  {
    a.left <= b.right && b.left <= a.right && a.bottom <= b.top && b.bottom <= a.top
  }

  /** The degenerate box of a single point, as shapely's `Point.bounds`. */
  function PointBox(p: Point): Box
  {
    Box(p.x, p.y, p.x, p.y)
  }

  /** Box spanned by two points: min/max of each coordinate. */
  function SegmentBox(p: Point, q: Point): (box: Box)
    ensures Covers(box, p) && Covers(box, q)
    ensures forall o: Box :: Covers(o, p) && Covers(o, q) ==>
              o.left <= box.left && box.right <= o.right && o.bottom <= box.bottom && box.top <= o.top
  {
    Box(Min(p.x, q.x), Min(p.y, q.y), Max(p.x, q.x), Max(p.y, q.y))
  }

  /** Bounds of a polyline: the smallest box covering all its vertices. */
  function Bounds(l: seq<Point>): (box: Box)
    requires |l| > 0
    ensures forall k :: 0 <= k < |l| ==> Covers(box, l[k])
    ensures forall o: Box :: (forall k :: 0 <= k < |l| ==> Covers(o, l[k])) ==>
              o.left <= box.left && box.right <= o.right && o.bottom <= box.bottom && box.top <= o.top
  {
    if |l| == 1 then PointBox(l[0])
    else
      var init := Bounds(l[..|l| - 1]);
      var p := l[|l| - 1];
      var box := Box(Min(init.left, p.x), Min(init.bottom, p.y), Max(init.right, p.x), Max(init.top, p.y));
      assert forall k :: 0 <= k < |l| - 1 ==> l[k] == l[..|l| - 1][k];
      box
  }

  /** A box meets a point's box exactly when it covers the point. */
  lemma MeetsPointBox(box: Box, p: Point)
    ensures Meets(box, PointBox(p)) <==> Covers(box, p)
  {
  }
}

=== FILE: nearest_street.dfy ===
/** Nearest-street assignment of building centroids (the helpers of
    `street_edges`): point-to-segment projection, the R-tree items built
    from street polylines, and the per-centroid choice of the nearest hit. */
module NearestStreet {
  import opened Results
  import opened Seqs
  import opened Geometry

  /** Half-side of the search square around each centroid. */
  const MinSize: real := 100.0

  /** Initial "distance so far"; hits farther than this are never chosen. */
  const Infty: real := 1000000000000.0

  /** `Infty` squared, since the model compares squared distances. */
  const InftySq: real := Infty * Infty

  /** A piece the projection can handle: the division by its squared
      length raises exactly when that length is zero (b = c). */
  predicate Proper(s: Segment)
  {
    SqDist(s.c, s.b) != 0.0
  }

  /** <a - b, c - b>, the numerator of the projection parameter. */
  function Dot(a: Point, s: Segment): real
  {
    (a.x - s.b.x) * (s.c.x - s.b.x) + (a.y - s.b.y) * (s.c.y - s.b.y)
  }

  /** The projection parameter t = <a - b, c - b> / |c - b|^2; the division
      by |c - b|^2 is why the source cannot handle a zero-length segment. */
  function Param(a: Point, s: Segment): real
    requires Proper(s)
  {
    Dot(a, s) / SqDist(s.c, s.b)
  }

  datatype Projection = Projection(point: Point, sqDist: real)

  /** get_distance: the orthogonal projection when it falls strictly inside
      the segment, otherwise the endpoint on the side it fell on. */
  function Project(a: Point, s: Segment): (r: Projection)
    requires Proper(s)
    ensures r.sqDist == SqDist(a, r.point)
    ensures 0.0 < Param(a, s) < 1.0 ==> r.point == At(s, Param(a, s))
    ensures Param(a, s) <= 0.0 ==> r.point == s.b
    ensures 1.0 <= Param(a, s) ==> r.point == s.c
  {
    var t := Param(a, s);
    if 0.0 < t < 1.0 then Projection(At(s, t), SqDist(a, At(s, t)))
    else if t <= 0.0 then Projection(s.b, SqDist(a, s.b))
    else Projection(s.c, SqDist(a, s.c))
  }

  lemma ExpandSquares(dx: real, dy: real, ex: real, ey: real, u: real)
    ensures (dx - u * ex) * (dx - u * ex) + (dy - u * ey) * (dy - u * ey)
         == (dx * dx + dy * dy) - 2.0 * u * (dx * ex + dy * ey) + u * u * (ex * ex + ey * ey)
  {
  }

  lemma SqDistOfDiffs(a: Point, p: Point, dx: real, dy: real)
    requires a.x - p.x == dx && a.y - p.y == dy
    ensures SqDist(a, p) == dx * dx + dy * dy
  {
  }

  lemma DotOfDiffs(a: Point, s: Segment, dx: real, dy: real, ex: real, ey: real)
    requires a.x - s.b.x == dx && a.y - s.b.y == dy && s.c.x - s.b.x == ex && s.c.y - s.b.y == ey
    ensures Dot(a, s) == dx * ex + dy * ey
  {
  }

  /** The squared distance along the segment is a quadratic in the parameter. */
  lemma SqDistAlong(a: Point, s: Segment, u: real)
    ensures SqDist(a, At(s, u)) == SqDist(a, s.b) - 2.0 * u * Dot(a, s) + u * u * SqDist(s.c, s.b)
  {
    var dx, dy := a.x - s.b.x, a.y - s.b.y;
    var ex, ey := s.c.x - s.b.x, s.c.y - s.b.y;
    SqDistOfDiffs(a, At(s, u), dx - u * ex, dy - u * ey);
    SqDistOfDiffs(a, s.b, dx, dy);
    SqDistOfDiffs(s.c, s.b, ex, ey);
    DotOfDiffs(a, s, dx, dy, ex, ey);
    ExpandSquares(dx, dy, ex, ey, u);
  }

  /** The projected point lies on the segment: it is At(s, u) for some u in [0, 1]. */
  lemma ProjectOnSegment(a: Point, s: Segment) returns (u: real)
    requires Proper(s)
    ensures 0.0 <= u <= 1.0
    ensures Project(a, s).point == At(s, u)
  {
    var t := Param(a, s);
    if 0.0 < t < 1.0 {
      u := t;
    } else if t <= 0.0 {
      u := 0.0;
      assert At(s, 0.0) == s.b;
    } else {
      u := 1.0;
      assert At(s, 1.0) == s.c;
    }
  }

  /** Comparing the quadratic -2uD + u^2 L at `u` and at the clamped
      parameter `v`: the clamped one is never larger on [0, 1]. */
  lemma ClampMinimises(L: real, D: real, t: real, u: real, v: real)
    requires L > 0.0 && D == t * L
    requires 0.0 <= u <= 1.0
    requires v == if 0.0 < t < 1.0 then t else if t <= 0.0 then 0.0 else 1.0
    ensures -2.0 * v * D + v * v * L <= -2.0 * u * D + u * u * L
  {
    if 0.0 < t < 1.0 {
      if u >= t {
        MulNonNeg(L, u - t);
        MulNonNeg(L * (u - t), u - t);
      } else {
        MulNonNeg(L, t - u);
        MulNonNeg(L * (t - u), t - u);
      }
    } else if t <= 0.0 {
      MulNonNeg(L, u);
      MulNonNeg(L * u, u - 2.0 * t);
    } else {
      MulNonNeg(L, 1.0 - u);
      MulNonNeg(L * (1.0 - u), 2.0 * t - u - 1.0);
    }
  }

  /** The parameter times the squared length gives back the dot product. */
  lemma ParamScales(a: Point, s: Segment)
    requires Proper(s)
    ensures Dot(a, s) == Param(a, s) * SqDist(s.c, s.b)
  {
  }

  /** The projected point is the segment's point at the clamped parameter. */
  lemma ProjectAtClamp(a: Point, s: Segment, v: real)
    requires Proper(s)
    requires v == var t := Param(a, s); if 0.0 < t < 1.0 then t else if t <= 0.0 then 0.0 else 1.0
    ensures Project(a, s).point == At(s, v)
  {
    assert At(s, 0.0) == s.b;
    assert At(s, 1.0) == s.c;
  }

  /** The projection is a nearest point of the segment: no point At(s, u)
      with u in [0, 1] is closer to `a`. */
  lemma ProjectIsNearest(a: Point, s: Segment, u: real)
    requires Proper(s)
    requires 0.0 <= u <= 1.0
    ensures Project(a, s).sqDist <= SqDist(a, At(s, u))
  {
    var t := Param(a, s);
    var v := if 0.0 < t < 1.0 then t else if t <= 0.0 then 0.0 else 1.0;
    ParamScales(a, s);
    ProjectAtClamp(a, s, v);
    ClampIsNearest(a, s, u, t, v);
  }

  /** The segment's point at the clamped parameter is at least as near as
      any other point of the segment. */
  lemma ClampIsNearest(a: Point, s: Segment, u: real, t: real, v: real)
    requires Proper(s)
    requires 0.0 <= u <= 1.0
    requires Dot(a, s) == t * SqDist(s.c, s.b)
    requires v == if 0.0 < t < 1.0 then t else if t <= 0.0 then 0.0 else 1.0
    ensures SqDist(a, At(s, v)) <= SqDist(a, At(s, u))
  {
    SqDistNonNeg(s.c, s.b);
    SqDistAlong(a, s, u);
    SqDistAlong(a, s, v);
    QuadraticCompare(SqDist(a, s.b), SqDist(s.c, s.b), Dot(a, s), t, u, v, SqDist(a, At(s, u)), SqDist(a, At(s, v)));
  }

  /** The quadratic comparison, stated over plain reals. */
  lemma QuadraticCompare(A: real, L: real, D: real, t: real, u: real, v: real, su: real, sv: real)
    requires L > 0.0 && D == t * L
    requires 0.0 <= u <= 1.0
    requires v == if 0.0 < t < 1.0 then t else if t <= 0.0 then 0.0 else 1.0
    requires su == A - 2.0 * u * D + u * u * L
    requires sv == A - 2.0 * v * D + v * v * L
    ensures sv <= su
  {
    ClampMinimises(L, D, t, u, v);
  }

  /** A street as the caller lists it: name, network id and polyline. */
  datatype Street = Street(name: string, nid: int, coords: seq<Point>)

  /** One R-tree entry: running index, bounding box, and the raw payload
      (street name, two-point sub-segment, network id). */
  datatype Item = Item(id: nat, box: Box, name: string, seg: Segment, nid: int)

  /** Sub-segments of a polyline of k vertices: `range(k - 1)` is empty for k <= 1. */
  function Pieces(l: seq<Point>): nat
  {
    if |l| == 0 then 0 else |l| - 1
  }

  /** Number of items generated for the first `j` streets. */
  function Offset(lines: seq<Street>, j: nat): nat
    requires j <= |lines|
  {
    if j == 0 then 0 else Offset(lines, j - 1) + Pieces(lines[j - 1].coords)
  }

  lemma {:induction false} OffsetGrows(lines: seq<Street>, j: nat, j': nat)
    requires j < j' <= |lines|
    ensures Offset(lines, j) + Pieces(lines[j].coords) <= Offset(lines, j')
  {
    if j' > j + 1 {
      OffsetGrows(lines, j, j' - 1);
    }
  }

  /** The item for sub-segment `i` of street `j`. */
  function ItemOf(lines: seq<Street>, j: nat, i: nat): Item
    requires j < |lines| && i + 1 < |lines[j].coords|
  {
    var l := lines[j].coords;
    Item(Offset(lines, j) + i, SegmentBox(l[i], l[i + 1]), lines[j].name, Segment(l[i], l[i + 1]), lines[j].nid)
  }

  /** Sub-segment `i` of street `j` sits at its running index in `items`. */
  predicate Placed(items: seq<Item>, lines: seq<Street>, j: nat, i: nat)
    requires j < |lines| && i + 1 < |lines[j].coords|
  {
    Offset(lines, j) + i < |items| && items[Offset(lines, j) + i] == ItemOf(lines, j, i)
  }

  /** get_rtree's generator: every polyline is cut into consecutive
      two-point pieces, each boxed and numbered by one running index. */
  method BuildItems(lines: seq<Street>) returns (items: seq<Item>)
    ensures |items| == Offset(lines, |lines|)
    ensures forall k :: 0 <= k < |items| ==> items[k].id == k
    ensures forall k :: 0 <= k < |items| ==>
              Covers(items[k].box, items[k].seg.b) && Covers(items[k].box, items[k].seg.c)
    ensures forall j, i :: 0 <= j < |lines| && 0 <= i && i + 1 < |lines[j].coords| ==> Placed(items, lines, j, i)
  {
    items := [];
    var j := 0;
    while j < |lines|
      invariant j <= |lines|
      invariant |items| == Offset(lines, j)
      invariant forall k :: 0 <= k < |items| ==>
                  items[k].id == k && Covers(items[k].box, items[k].seg.b) && Covers(items[k].box, items[k].seg.c)
      invariant forall j', i :: 0 <= j' < j && 0 <= i && i + 1 < |lines[j'].coords| ==> Placed(items, lines, j', i)
    {
      var l := lines[j].coords;
      var i := 0;
      while i < |l| - 1
        invariant 0 <= i <= Pieces(l)
        invariant |items| == Offset(lines, j) + i
        invariant forall k :: 0 <= k < |items| ==>
                    items[k].id == k && Covers(items[k].box, items[k].seg.b) && Covers(items[k].box, items[k].seg.c)
        invariant forall j', i' :: 0 <= j' < j && 0 <= i' && i' + 1 < |lines[j'].coords| ==> Placed(items, lines, j', i')
        invariant forall i' :: 0 <= i' < i ==> Placed(items, lines, j, i')
      {
        ghost var before := items;
        items := items + [Item(|items|, SegmentBox(l[i], l[i + 1]), lines[j].name, Segment(l[i], l[i + 1]), lines[j].nid)];
        forall j', i' | 0 <= j' < j && 0 <= i' && i' + 1 < |lines[j'].coords|
          ensures Placed(items, lines, j', i')
        {
          assert Placed(before, lines, j', i');
        }
        forall i' | 0 <= i' < i + 1
          ensures Placed(items, lines, j, i')
        {
          if i' < i {
            assert Placed(before, lines, j, i');
          }
        }
        i := i + 1;
      }
      forall j', i' | 0 <= j' < j + 1 && 0 <= i' && i' + 1 < |lines[j'].coords|
        ensures Placed(items, lines, j', i')
      {
      }
      j := j + 1;
    }
  }

  /** The square of half-side `half` centred on `p`. */
  function Window(p: Point, half: real): Box
  {
    Box(p.x - half, p.y - half, p.x + half, p.y + half)
  }

  /** An R-tree box query: the items whose box meets `w`, in index order. */
  function Query(items: seq<Item>, w: Box): (r: seq<Item>)
    ensures forall it :: it in r ==> it in items && Meets(it.box, w)
  {
    Filter(items, (it: Item) => Meets(it.box, w))
  }

  /** The query misses no item whose box meets the window. */
  lemma QueryComplete(items: seq<Item>, w: Box, it: Item)
    requires it in items && Meets(it.box, w)
    ensures it in Query(items, w)
  {
    FilterMember(items, (it: Item) => Meets(it.box, w), it);
  }

  /** Squared distance from `p` to the piece `s` (zero-length pieces measured
      to their single point; the source raises on them before comparing). */
  function SegSqDist(p: Point, s: Segment): real
  {
    if Proper(s) then Project(p, s).sqDist else SqDist(p, s.b)
  }

  /** The squared distance get_solution's loop ends with: `Infty` lowered to
      the nearest hit. */
  function BestSqDist(p: Point, hits: seq<Item>): real
  {
    if |hits| == 0 then InftySq
    else Min(BestSqDist(p, hits[..|hits| - 1]), SegSqDist(p, hits[|hits| - 1].seg))
  }

  lemma {:induction false} BestIsLowerBound(p: Point, hits: seq<Item>)
    ensures BestSqDist(p, hits) <= InftySq
    ensures forall it :: it in hits ==> BestSqDist(p, hits) <= SegSqDist(p, it.seg)
    ensures BestSqDist(p, hits) == InftySq || exists it :: it in hits && BestSqDist(p, hits) == SegSqDist(p, it.seg)
  {
    if |hits| > 0 {
      var init := hits[..|hits| - 1];
      BestIsLowerBound(p, init);
      assert hits == init + [hits[|hits| - 1]];
      if BestSqDist(p, init) != InftySq && BestSqDist(p, init) <= SegSqDist(p, hits[|hits| - 1].seg) {
        var it :| it in init && BestSqDist(p, init) == SegSqDist(p, it.seg);
        assert it in hits;
      }
    }
  }

  /** The best distance depends only on which items were hit, not their order. */
  lemma BestSubset(p: Point, small: seq<Item>, large: seq<Item>)
    requires forall it :: it in small ==> it in large
    ensures BestSqDist(p, large) <= BestSqDist(p, small)
  {
    BestIsLowerBound(p, small);
    BestIsLowerBound(p, large);
  }

  /** Widening the search square never makes the nearest distance found worse. */
  lemma WiderWindowNoWorse(items: seq<Item>, p: Point, half: real, wider: real)
    requires half <= wider
    ensures BestSqDist(p, Query(items, Window(p, wider))) <= BestSqDist(p, Query(items, Window(p, half)))
  {
    forall it | it in Query(items, Window(p, half))
      ensures it in Query(items, Window(p, wider))
    {
      QueryComplete(items, Window(p, wider), it);
    }
    BestSubset(p, Query(items, Window(p, half)), Query(items, Window(p, wider)));
  }

  /** Outcome of scanning one centroid's hits. */
  datatype Pick = Picked(k: nat) | Unassigned | ZeroLength

  /** get_solution's inner loop: keep the hit with the least distance, where
      `d >= new_d` lets a later hit at equal distance replace an earlier one;
      a zero-length hit raises (division by zero in the projection). */
  method NearestHit(p: Point, hits: seq<Item>) returns (r: Pick)
    ensures r.ZeroLength? <==> exists j :: 0 <= j < |hits| && !Proper(hits[j].seg)
    ensures r.Unassigned? <==>
              forall j :: 0 <= j < |hits| ==> Proper(hits[j].seg) && SegSqDist(p, hits[j].seg) > InftySq
    ensures r.Picked? ==> r.k < |hits| && SegSqDist(p, hits[r.k].seg) <= InftySq
    ensures r.Picked? ==> forall j :: 0 <= j < |hits| ==>
              Proper(hits[j].seg) && SegSqDist(p, hits[r.k].seg) <= SegSqDist(p, hits[j].seg)
    ensures r.Picked? ==> forall j :: r.k < j < |hits| ==> SegSqDist(p, hits[r.k].seg) < SegSqDist(p, hits[j].seg)
    ensures r.Picked? ==> SegSqDist(p, hits[r.k].seg) == BestSqDist(p, hits)
  {
    var d := InftySq;
    var s := -1;
    var j := 0;
    while j < |hits|
      invariant 0 <= j <= |hits|
      invariant -1 <= s < j
      invariant forall i :: 0 <= i < j ==> Proper(hits[i].seg)
      invariant d == BestSqDist(p, hits[..j])
      invariant s == -1 ==> d == InftySq && forall i :: 0 <= i < j ==> SegSqDist(p, hits[i].seg) > InftySq
      invariant s >= 0 ==> d == SegSqDist(p, hits[s].seg) && d <= InftySq
      invariant forall i :: 0 <= i < j ==> d <= SegSqDist(p, hits[i].seg)
      invariant forall i :: s < i < j ==> d < SegSqDist(p, hits[i].seg)
    {
      assert hits[..j + 1][..j] == hits[..j];
      if !Proper(hits[j].seg) {
        return ZeroLength;
      }
      var pr := Project(p, hits[j].seg);
      if d >= pr.sqDist {
        d := pr.sqDist;
        s := j;
      }
      j := j + 1;
    }
    assert hits[..j] == hits;
    if s == -1 {
      r := Unassigned;
    } else {
      r := Picked(s);
    }
  }

  /** What get_solution stores per centroid: the chosen hit's payload, or the
      `(0, 0)` sentinel when nothing was chosen. */
  datatype Assignment = Assigned(name: string, seg: Segment, nid: int) | NoStreet

  datatype SolveError = ZeroLengthPiece(at: Point)

  /** The assignment of `p` is the nearest candidate of its search square:
      a candidate at least as close as every other, or the sentinel exactly
      when no candidate is within `Infty`. */
  ghost predicate Justified(items: seq<Item>, p: Point, a: Assignment)
  {
    var cands := Query(items, Window(p, MinSize));
    && (a.NoStreet? <==> forall it :: it in cands ==> SegSqDist(p, it.seg) > InftySq)
    && (a.Assigned? ==>
          && (exists it :: it in cands && it.name == a.name && it.seg == a.seg && it.nid == a.nid)
          && SegSqDist(p, a.seg) <= InftySq
          && forall it :: it in cands ==> SegSqDist(p, a.seg) <= SegSqDist(p, it.seg))
  }

  /** The search square of `p` holds a zero-length piece. */
  ghost predicate HasZeroLength(items: seq<Item>, p: Point)
  {
    exists it :: it in Query(items, Window(p, MinSize)) && !Proper(it.seg)
  }

  /** One centroid of get_solution: scan its hits and store the chosen
      payload, or the sentinel. `hits` holds the candidates of the search
      square in whatever order the R-tree yields them. */
  method AssignOne(items: seq<Item>, p: Point, hits: seq<Item>) returns (r: Result<Assignment, SolveError>)
    requires multiset(hits) == multiset(Query(items, Window(p, MinSize)))
    ensures r.Failure? <==> HasZeroLength(items, p)
    ensures r.Success? ==> Justified(items, p, r.value)
  {
    var cands := Query(items, Window(p, MinSize));
    assert forall it :: it in hits <==> it in cands by {
      forall it
        ensures it in hits <==> it in cands
      {
        assert it in hits <==> it in multiset(hits);
        assert it in cands <==> it in multiset(cands);
      }
    }
    var pick := NearestHit(p, hits);
    if pick.ZeroLength? {
      var j :| 0 <= j < |hits| && !Proper(hits[j].seg);
      assert hits[j] in cands;
      return Failure(ZeroLengthPiece(p));
    }
    forall it | it in cands
      ensures Proper(it.seg)
    {
      var j :| 0 <= j < |hits| && hits[j] == it;
    }
    if pick.Picked? {
      var h := hits[pick.k];
      r := Success(Assigned(h.name, h.seg, h.nid));
      forall it | it in cands
        ensures SegSqDist(p, h.seg) <= SegSqDist(p, it.seg)
      {
        var j :| 0 <= j < |hits| && hits[j] == it;
      }
      assert h in cands;
    } else {
      r := Success(NoStreet);
      forall it | it in cands
        ensures SegSqDist(p, it.seg) > InftySq
      {
        var j :| 0 <= j < |hits| && hits[j] == it;
      }
    }
  }

  /** The dict get_solution returns, as its items in insertion order. */
  type Entries = seq<(Point, Assignment)>

  /** The dict's keys, in insertion order. */
  function Keys(e: Entries): (r: seq<Point>)
    ensures |r| == |e|
    ensures forall n :: 0 <= n < |e| ==> r[n] == e[n].0
  {
    seq(|e|, n requires 0 <= n < |e| => e[n].0)
  }

  /** `result[q]`: the value stored under key `q`. */
  function Lookup(e: Entries, q: Point): (a: Assignment)
    requires q in Keys(e)
    ensures exists n :: 0 <= n < |e| && e[n] == (q, a)
  {
    e[IndexOf(Keys(e), q)].1
  }

  /** `result[q] = a`: a key already present keeps its place and takes the
      new value; a new key goes last. */
  function Store(e: Entries, q: Point, a: Assignment): (r: Entries)
    requires Distinct(Keys(e))
    ensures Keys(r) == if q in Keys(e) then Keys(e) else Keys(e) + [q]
    ensures Distinct(Keys(r))
    ensures Lookup(r, q) == a
    ensures forall p :: p in Keys(e) && p != q ==> Lookup(r, p) == Lookup(e, p)
  {
    var ks := Keys(e);
    if q in ks then
      var r := e[IndexOf(ks, q) := (q, a)];
      assert Keys(r) == ks;
      assert forall p :: p in ks ==> IndexOf(Keys(r), p) == IndexOf(ks, p);
      r
    else
      var r := e + [(q, a)];
      assert Keys(r) == ks + [q];
      assert forall p :: p in ks ==> IndexOf(Keys(r), p) == IndexOf(ks, p);
      r
  }

  /** Every entry of `e` is justified. */
  ghost predicate AllJustified(items: seq<Item>, e: Entries)
  {
    forall n :: 0 <= n < |e| ==> Justified(items, e[n].0, e[n].1)
  }

  /** Storing a justified assignment keeps the whole dict justified. */
  lemma StoreJustified(items: seq<Item>, e: Entries, q: Point, a: Assignment)
    requires Distinct(Keys(e))
    requires AllJustified(items, e) && Justified(items, q, a)
    ensures AllJustified(items, Store(e, q, a))
  {
    var r := Store(e, q, a);
    forall n | 0 <= n < |r|
      ensures Justified(items, r[n].0, r[n].1)
    {
      if n < |e| && r[n] != e[n] {
        assert r[n] == (q, a);
      }
    }
  }

  /** The dict after filling it from the centroids `xs`: one key per
      distinct centroid in order of first insertion, each entry justified. */
  ghost predicate Filled(items: seq<Item>, e: Entries, xs: seq<Point>)
  {
    Keys(e) == Dedup(xs) && AllJustified(items, e)
  }

  /** Storing the next centroid's justified assignment keeps the dict filled. */
  lemma FillStep(items: seq<Item>, e: Entries, xs: seq<Point>, x: Point, a: Assignment)
    requires Filled(items, e, xs) && Justified(items, x, a)
    ensures Distinct(Keys(e))
    ensures Filled(items, Store(e, x, a), xs + [x])
  {
    DedupSnoc(xs, x);
    StoreJustified(items, e, x, a);
  }

  /** One turn of get_solution's loop: assign the centroid `points[k]` and
      store the result under it. */
  method SolveStep(items: seq<Item>, e: Entries, points: seq<Point>, hits: seq<Item>, k: nat)
    returns (r: Result<Entries, SolveError>)
    requires k < |points| && Filled(items, e, points[..k])
    requires multiset(hits) == multiset(Query(items, Window(points[k], MinSize)))
    ensures r.Failure? <==> HasZeroLength(items, points[k])
    ensures r.Success? ==> Filled(items, r.value, points[..k + 1])
  {
    var a := AssignOne(items, points[k], hits);
    if a.Failure? {
      return Failure(a.error);
    }
    var e' := Put(items, e, points[..k], points[k], a.value);
    assert points[..k + 1] == points[..k] + [points[k]];
    r := Success(e');
  }

  /** `result[p] = s` on a filled dict. */
  method Put(items: seq<Item>, e: Entries, xs: seq<Point>, x: Point, a: Assignment) returns (r: Entries)
    requires Filled(items, e, xs) && Justified(items, x, a)
    ensures Filled(items, r, xs + [x])
  {
    FillStep(items, e, xs, x, a);
    r := Store(e, x, a);
  }

  /** get_solution: one entry per distinct centroid, keyed by the point, in
      order of first insertion. `hits[k]` is what the R-tree returns for
      `points[k]`. */
  method Solve(items: seq<Item>, points: seq<Point>, hits: seq<seq<Item>>)
    returns (r: Result<Entries, SolveError>)
    requires |hits| == |points|
    requires forall k :: 0 <= k < |points| ==>
               multiset(hits[k]) == multiset(Query(items, Window(points[k], MinSize)))
    ensures r.Failure? <==> exists k :: 0 <= k < |points| && HasZeroLength(items, points[k])
    ensures r.Success? ==> Keys(r.value) == Dedup(points)
    ensures r.Success? ==> forall n :: 0 <= n < |r.value| ==> Justified(items, r.value[n].0, r.value[n].1)
  {
    var result: Entries := [];
    var k := 0;
    while k < |points|
      invariant k <= |points|
      invariant Filled(items, result, points[..k])
      invariant forall i :: 0 <= i < k ==> !HasZeroLength(items, points[i])
    {
      var step := SolveStep(items, result, points, hits[k], k);
      if step.Failure? {
        return Failure(step.error);
      }
      result := step.value;
      k := k + 1;
    }
    assert points[..k] == points;
    r := Success(result);
  }

  /** How street_edges pairs buildings with the dict: after `reset_index`
      the n-th entry carries `idx` n and is merged with the building whose
      index label is n. Buildings are labelled by the position of their
      centroid in `points`; one without an entry of its label is dropped by
      the inner merge (`None`). */
  function PairByPosition(e: Entries, count: nat): (r: seq<Option<Assignment>>)
    ensures |r| == count
  {
    seq(count, b requires 0 <= b < count => if b < |e| then Some(e[b].1) else None)
  }

  /** The pairing intended: each building gets the entry of its own centroid. */
  function PairByPoint(e: Entries, points: seq<Point>): (r: seq<Assignment>)
    requires forall b :: 0 <= b < |points| ==> points[b] in Keys(e)
    ensures |r| == |points|
  {
    seq(|points|, b requires 0 <= b < |points| => Lookup(e, points[b]))
  }

  /** With the pairing by point, every building receives an assignment
      justified for its own centroid. */
  lemma PairByPointJustified(items: seq<Item>, e: Entries, points: seq<Point>)
    requires Keys(e) == Dedup(points) && AllJustified(items, e)
    ensures forall b :: 0 <= b < |points| ==> points[b] in Keys(e)
    ensures forall b :: 0 <= b < |points| ==> Justified(items, points[b], PairByPoint(e, points)[b])
  {
    assert forall b :: 0 <= b < |points| ==> points[b] in Dedup(points);
    forall b | 0 <= b < |points|
      ensures Justified(items, points[b], PairByPoint(e, points)[b])
    {
      var n :| 0 <= n < |e| && e[n] == (points[b], Lookup(e, points[b]));
    }
  }

  /** Without repeated centroids the pairing by position is the pairing by
      point. */
  lemma PositionPairingDistinct(e: Entries, points: seq<Point>)
    requires Keys(e) == Dedup(points) && Distinct(points)
    ensures forall b :: 0 <= b < |points| ==> points[b] in Keys(e)
    ensures forall b :: 0 <= b < |points| ==> PairByPosition(e, |points|)[b] == Some(PairByPoint(e, points)[b])
  {
    DedupDistinct(points);
    assert forall b :: 0 <= b < |points| ==> points[b] in Keys(e);
    forall b | 0 <= b < |points|
      ensures PairByPosition(e, |points|)[b] == Some(PairByPoint(e, points)[b])
    {
      assert Keys(e) == points;
      IndexOfDistinct(points, b);
      assert PairByPoint(e, points)[b] == e[b].1;
    }
  }

  /** With a repeated centroid the dict has fewer entries than there are
      buildings, so the pairing by position drops the last building. */
  lemma PositionPairingDrops(e: Entries, points: seq<Point>)
    requires Keys(e) == Dedup(points) && !Distinct(points)
    ensures PairByPosition(e, |points|)[|points| - 1] == None
  {
    DedupShorter(points);
  }

  /** Centroids p, p, q: the second building, whose centroid is p, receives
      the entry stored for q, and the third receives none. */
  lemma DuplicateCentroidShifts(e: Entries, p: Point, q: Point)
    requires p != q && Keys(e) == Dedup([p, p, q])
    ensures |e| == 2 && e[1].0 == q && PairByPosition(e, 3)[1] == Some(e[1].1)
    ensures PairByPosition(e, 3)[2] == None
  {
    assert [p, p, q][..2] == [p, p] && [p, p][..1] == [p] && [p][..0] == [];
    assert Dedup([p, p, q]) == [p, q];
  }
}

=== FILE: results.dfy ===
/** Success/failure outcomes. A Python exception that aborts a stage of the
    pipeline is modelled as a `Failure` carrying the reason. */
module Results {

  datatype Result<+T, +E> = Success(value: T) | Failure(error: E) {

    predicate IsFailure() {
      Failure?
    }

    function PropagateFailure<U>(): Result<U, E>
      requires Failure?
    {
      Failure(error)
    }

    function Extract(): T
      requires Success?
    {
      value
    }
  }

  /** A value that may be missing, as a NaN cell of a numeric column. */
  datatype Option<+T> = None | Some(value: T)
}

=== FILE: seqs.dfy ===
/** Sequence helpers shared by the pipeline: order-preserving filtering,
    concatenation of nested sequences, and first-occurrence arg-min/arg-max
    (the tie-break Python's `min`/`max` apply to a dict's items). */
module Seqs {

  /** The elements of `s` that satisfy `keep`, in their original order. */
  function Filter<T>(s: seq<T>, keep: T -> bool): (r: seq<T>)
    ensures |r| <= |s|
    ensures forall x :: x in r ==> x in s && keep(x)
  {
    if |s| == 0 then []
    else Filter(s[..|s| - 1], keep) + (if keep(s[|s| - 1]) then [s[|s| - 1]] else [])
  }

  /** Filtering keeps every element that satisfies the predicate, as often as it occurs. */
  lemma {:induction false} FilterCount<T>(s: seq<T>, keep: T -> bool, x: T)
    ensures multiset(Filter(s, keep))[x] == if keep(x) then multiset(s)[x] else 0
  {
    if |s| > 0 {
      FilterCount(s[..|s| - 1], keep, x);
      assert s == s[..|s| - 1] + [s[|s| - 1]];
    }
  }

  /** Filtering distributes over concatenation, so relative order is kept. */
  lemma {:induction false} FilterAppend<T>(a: seq<T>, b: seq<T>, keep: T -> bool)
    ensures Filter(a + b, keep) == Filter(a, keep) + Filter(b, keep)
  {
    if |b| > 0 {
      assert (a + b)[..|a + b| - 1] == a + b[..|b| - 1];
      FilterAppend(a, b[..|b| - 1], keep);
    } else {
      assert a + b == a;
    }
  }

  /** Membership in a filtered sequence, both directions. */
  lemma FilterMember<T>(s: seq<T>, keep: T -> bool, x: T)
    ensures x in Filter(s, keep) <==> x in s && keep(x)
  {
    FilterCount(s, keep, x);
  }

  /** The positions 0, 1, ..., n - 1. */
  function Range(n: nat): (r: seq<nat>)
    ensures |r| == n
    ensures forall k :: 0 <= k < n ==> r[k] == k
  {
    seq(n, k => k)
  }

  /** Concatenation of a sequence of sequences, in order. */
  function Flatten<T>(ss: seq<seq<T>>): seq<T>
  {
    if |ss| == 0 then [] else Flatten(ss[..|ss| - 1]) + ss[|ss| - 1]
  }

  /** Total length of a sequence of sequences. */
  function TotalLength<T>(ss: seq<seq<T>>): nat
  {
    if |ss| == 0 then 0 else TotalLength(ss[..|ss| - 1]) + |ss[|ss| - 1]|
  }

  /** Flattening keeps every element of every part and nothing else. */
  lemma {:induction false} FlattenContents<T>(ss: seq<seq<T>>)
    ensures |Flatten(ss)| == TotalLength(ss)
    ensures forall x :: x in Flatten(ss) ==> exists k :: 0 <= k < |ss| && x in ss[k]
    ensures forall x, k :: 0 <= k < |ss| && x in ss[k] ==> x in Flatten(ss)
  {
    if |ss| > 0 {
      var init := ss[..|ss| - 1];
      FlattenContents(init);
      forall x | x in Flatten(ss)
        ensures exists k :: 0 <= k < |ss| && x in ss[k]
      {
        if x in Flatten(init) {
          var k :| 0 <= k < |init| && x in init[k];
          assert ss[k] == init[k];
        } else {
          assert x in ss[|ss| - 1];
        }
      }
      forall x, k | 0 <= k < |ss| && x in ss[k]
        ensures x in Flatten(ss)
      {
        if k < |ss| - 1 {
          assert init[k] == ss[k];
          assert x in Flatten(init);
        }
      }
    }
  }

  /** Flattening distributes over concatenation. */
  lemma {:induction false} FlattenAppend<T>(a: seq<seq<T>>, b: seq<seq<T>>)
    ensures Flatten(a + b) == Flatten(a) + Flatten(b)
  {
    if |b| > 0 {
      assert (a + b)[..|a + b| - 1] == a + b[..|b| - 1];
      FlattenAppend(a, b[..|b| - 1]);
    } else {
      assert a + b == a;
    }
  }

  /** The reversal of a sequence, as Python's `list.reverse()` leaves it. */
  function Reverse<T>(s: seq<T>): (r: seq<T>)
    ensures |r| == |s|
    ensures forall k :: 0 <= k < |s| ==> r[k] == s[|s| - 1 - k]
  {
    seq(|s|, k requires 0 <= k < |s| => s[|s| - 1 - k])
  }

  /** Reversing twice gives back the original. */
  lemma ReverseReverse<T>(s: seq<T>)
    ensures Reverse(Reverse(s)) == s
  {
  }

  /** Reversing keeps every element, as often as it occurs. */
  lemma {:induction false} ReverseMultiset<T>(s: seq<T>)
    ensures multiset(Reverse(s)) == multiset(s)
  {
    if |s| > 0 {
      var init := s[..|s| - 1];
      var x := s[|s| - 1];
      ReverseMultiset(init);
      assert s == init + [x];
      ReverseAppend(init, x);
    }
  }

  /** Reversing after appending puts the appended element in front. */
  lemma ReverseAppend<T>(s: seq<T>, x: T)
    ensures Reverse(s + [x]) == [x] + Reverse(s)
  {
  }

  /** Position of the first occurrence of `x` in `xs`. */
  function IndexOf<T(==)>(xs: seq<T>, x: T): (r: nat)
    requires x in xs
    ensures r < |xs| && xs[r] == x
    ensures forall j :: 0 <= j < r ==> xs[j] != x
  {
    var init := xs[..|xs| - 1];
    if x in init then
      var r := IndexOf(init, x);
      assert forall j :: 0 <= j <= r ==> xs[j] == init[j];
      r
    else
      assert forall j :: 0 <= j < |xs| - 1 ==> xs[j] == init[j];
      |xs| - 1
  }

  /** No element occurs twice. */
  predicate Distinct<T(==)>(xs: seq<T>)
  {
    forall i, j :: 0 <= i < j < |xs| ==> xs[i] != xs[j]
  }

  /** The keys of a dict filled from `xs`: each value once, in order of
      first occurrence. */
  function Dedup<T(==,!new)>(xs: seq<T>): (r: seq<T>)
    ensures forall x :: x in r <==> x in xs
    ensures forall i, j :: 0 <= i < j < |r| ==> IndexOf(xs, r[i]) < IndexOf(xs, r[j])
    ensures Distinct(r)
    ensures |r| <= |xs|
  {
    if |xs| == 0 then []
    else
      var init := xs[..|xs| - 1];
      var last := xs[|xs| - 1];
      var d := Dedup(init);
      assert xs == init + [last];
      assert forall x :: x in init ==> IndexOf(xs, x) == IndexOf(init, x) by {
        forall x | x in init
          ensures IndexOf(xs, x) == IndexOf(init, x)
        {
          assert x in xs;
        }
      }
      if last in d then d
      else
        assert IndexOf(xs, last) == |xs| - 1;
        d + [last]
  }

  /** Without repeats, the first occurrence of an element is its position. */
  lemma IndexOfDistinct<T(!new)>(xs: seq<T>, b: nat)
    requires Distinct(xs) && b < |xs|
    ensures IndexOf(xs, xs[b]) == b
  {
  }

  /** Filling a dict from `xs` and then `x`: `x` becomes a new last key
      unless it is already one. */
  lemma DedupSnoc<T(!new)>(xs: seq<T>, x: T)
    ensures Dedup(xs + [x]) == if x in xs then Dedup(xs) else Dedup(xs) + [x]
  {
    assert (xs + [x])[..|xs|] == xs;
  }

  /** Without repeats, filling a dict from `xs` keeps every element as a key
      at its own position. */
  lemma {:induction false} DedupDistinct<T(!new)>(xs: seq<T>)
    requires Distinct(xs)
    ensures Dedup(xs) == xs
  {
    if |xs| > 0 {
      var init := xs[..|xs| - 1];
      var last := xs[|xs| - 1];
      assert Distinct(init);
      DedupDistinct(init);
      assert last !in init;
      assert xs == init + [last];
      DedupSnoc(init, last);
    }
  }

  /** A repeated element costs the dict a key: it has fewer keys than
      `xs` has elements. */
  lemma {:induction false} DedupShorter<T(!new)>(xs: seq<T>)
    requires !Distinct(xs)
    ensures |Dedup(xs)| < |xs|
  {
    var init := xs[..|xs| - 1];
    var last := xs[|xs| - 1];
    assert xs == init + [last];
    if Distinct(init) {
      var i, j :| 0 <= i < j < |xs| && xs[i] == xs[j];
      assert j == |xs| - 1 && xs[i] == init[i];
      assert last in Dedup(init);
    } else {
      DedupShorter(init);
    }
  }

  /** Index of the first largest value: Python's `max(d.items(), key=...)`
      over a dict filled in index order returns the first maximal entry. */
  function FirstArgMax(xs: seq<real>): (k: nat)
    requires |xs| > 0
    ensures k < |xs|
    ensures forall j :: 0 <= j < |xs| ==> xs[j] <= xs[k]
    ensures forall j :: 0 <= j < k ==> xs[j] < xs[k]
  {
    if |xs| == 1 then 0
    else
      var k := FirstArgMax(xs[..|xs| - 1]);
      if xs[|xs| - 1] > xs[k] then |xs| - 1 else k
  }

  /** Index of the first smallest value: Python's `min(d.items(), key=...)`. */
  function FirstArgMin(xs: seq<real>): (k: nat)
    requires |xs| > 0
    ensures k < |xs|
    ensures forall j :: 0 <= j < |xs| ==> xs[k] <= xs[j]
    ensures forall j :: 0 <= j < k ==> xs[k] < xs[j]
  {
    if |xs| == 1 then 0
    else
      var k := FirstArgMin(xs[..|xs| - 1]);
      if xs[|xs| - 1] < xs[k] then |xs| - 1 else k
  }
}

=== FILE: snapping.dfy ===
/** snap_street_network_edge: every street segment whose end is not joined
    to another segment is extended towards the nearest street it can reach,
    or else towards the edge of the built-up area, unless the extended line
    would cross a building.

    The geometric predicates of the geometry engine (extrapolation,
    intersection, touching, crossing a building) are parameters collected in
    a `Kernel`; what the model fixes is how their answers are combined. */
module Snapping {
  import opened Results
  import opened Seqs
  import opened Geometry

  /** A street segment's coordinates, in order. */
  type Polyline = seq<Point>

  /** What the intersection of a probe with a geometry looks like, as far as
      the snapping cares: empty, one point, several points (a MultiPoint,
      so at least two), a collinear overlap, or a mixed collection. */
  datatype Meet =
    | NoMeet
    | AtPoint(p: Point)
    | AtPoints(first: Point, second: Point, more: seq<Point>)
    | Along
    | Mixed

  /** The geometry engine, as seen by the snapping:
      - `extrapolate(p1, p2, tol)` is the far end of the probe of length
        `tol` that starts at `p2` and continues the direction p1 -> p2;
      - `meet(l, a, b)` is the intersection of street `l` with the probe a-b;
      - `meetEdge(a, b)` the intersection of the built-up edge with it;
      - `touches(l, p)` whether street `l` intersects point `p`;
      - `hitsBuilding(l)` whether polyline `l` intersects some building. */
  datatype Kernel = Kernel(
    extrapolate: (Point, Point, real) -> Point,
    meet: (Polyline, Point, Point) -> Meet,
    meetEdge: (Point, Point) -> Meet,
    touches: (Polyline, Point) -> bool,
    hitsBuilding: Polyline -> bool)

  datatype SnapError =
    /** Too few vertices for a probe once a duplicate last vertex is skipped. */
    | ShortProbe
    /** The probe met something, but in no single point. */
    | NoPointOnOverlap

  /** Last two vertices closer than this count as a duplicate vertex. */
  const DupTol: real := 0.001

  const DupSqTol: real := DupTol * DupTol

  function Last(l: Polyline): Point
    requires |l| > 0
  {
    l[|l| - 1]
  }

  /** True when the last two vertices of `l` are (nearly) the same point. */
  predicate DuplicateEnd(l: Polyline)
    requires |l| >= 2
  {
    SqDist(l[|l| - 2], l[|l| - 1]) <= DupSqTol
  }

  /** The two vertices the probe continues: the last two, or, when those
      coincide, the two before the last. A two-vertex line whose vertices
      coincide has no such pair. */
  function ProbeBase(l: Polyline): (r: Result<(Point, Point), SnapError>)
    requires |l| >= 2
    ensures r.Failure? <==> |l| == 2 && DuplicateEnd(l)
    ensures r.Success? && !DuplicateEnd(l) ==> r.value == (l[|l| - 2], l[|l| - 1])
    ensures r.Success? && DuplicateEnd(l) ==> |l| >= 3 && r.value == (l[|l| - 3], l[|l| - 2])
  {
    if !DuplicateEnd(l) then Success((l[|l| - 2], l[|l| - 1]))
    else if |l| >= 3 then Success((l[|l| - 3], l[|l| - 2]))
    else Failure(ShortProbe)
  }

  /** The points a meet contributes: a MultiPoint gives its first two only. */
  function Points(m: Meet): (r: seq<Point>)
    ensures |r| <= 2
    ensures m.AtPoint? ==> r == [m.p]
    ensures m.AtPoints? ==> r == [m.first, m.second]
    ensures !m.AtPoint? && !m.AtPoints? ==> r == []
  {
    match m
    case AtPoint(p) => [p]
    case AtPoints(p, q, _) => [p, q]
    case _ => []
  }

  /** A MultiPoint contributes its first two points only: whatever further
      points it holds are never offered. */
  lemma PointsIgnoreRest(p: Point, q: Point, more: seq<Point>, more': seq<Point>)
    ensures Points(AtPoints(p, q, more)) == Points(AtPoints(p, q, more'))
    ensures forall x :: x in more && x != p && x != q ==> x !in Points(AtPoints(p, q, more))
  {
  }

  /** The candidate point nearest to `to`; the first such on ties. */
  function FirstNearest(pts: seq<Point>, to: Point): (r: Point)
    requires |pts| > 0
    ensures r in pts
    ensures forall j :: 0 <= j < |pts| ==> SqDist(r, to) <= SqDist(pts[j], to)
    ensures exists k :: 0 <= k < |pts| && pts[k] == r && forall j :: 0 <= j < k ==> SqDist(r, to) < SqDist(pts[j], to)
  {
    var ds := seq(|pts|, j requires 0 <= j < |pts| => SqDist(pts[j], to));
    var k := FirstArgMin(ds);
    assert forall j :: 0 <= j < |pts| ==> ds[j] == SqDist(pts[j], to);
    pts[k]
  }

  /** The line being extended (`l_coords`) and the network as it stands. */
  datatype Work = Work(coords: Polyline, net: seq<Polyline>)

  /** Appending the chosen point: the working line always grows, but the
      network row is replaced only when the grown line crosses no building. */
  function Accept(k: Kernel, w: Work, i: nat, p: Point): (r: Work)
    requires i < |w.net|
    ensures r.coords == w.coords + [p]
    ensures |r.net| == |w.net|
    ensures forall j :: 0 <= j < |w.net| && j != i ==> r.net[j] == w.net[j]
    ensures r.net[i] == w.net[i] || (r.net[i] == r.coords && !k.hitsBuilding(r.coords))
    ensures !k.hitsBuilding(r.coords) ==> r.net[i] == r.coords
  {
    var l := w.coords + [p];
    Work(l, if k.hitsBuilding(l) then w.net else w.net[i := l])
  }

  /** What a street probe did. */
  datatype Outcome = Missed | Extended(w: Work)

  /** Well-formed inputs: as many current rows as original ones, and no row
      without vertices. */
  predicate Shaped(net0: seq<Polyline>, net: seq<Polyline>)
  {
    && |net| == |net0|
    && (forall j :: 0 <= j < |net0| ==> |net0[j]| > 0)
  }

  /** The probe from the end of a working line: it starts at the second
      vertex of `ProbeBase` and ends at the extrapolated tip. */
  function ProbeOf(k: Kernel, l: Polyline, tol: real): (r: Result<(Point, Point), SnapError>)
    requires |l| >= 2
    ensures r.Failure? <==> ProbeBase(l).Failure?
    ensures r.Success? ==> r.value.0 == ProbeBase(l).value.1
    ensures r.Success? ==> r.value.1 == k.extrapolate(ProbeBase(l).value.0, ProbeBase(l).value.1, tol)
  {
    var base :- ProbeBase(l);
    Success((base.1, k.extrapolate(base.0, base.1, tol)))
  }

  /** Row `j` is one the street probe a-b tests: another row whose original
      box meets the probe's box. */
  predicate Candidate(net0: seq<Polyline>, i: nat, a: Point, b: Point, j: nat)
    requires forall j :: 0 <= j < |net0| ==> |net0[j]| > 0
  {
    j < |net0| && j != i && Meets(Bounds(net0[j]), SegmentBox(a, b))
  }

  /** No candidate row meets the probe a-b. */
  ghost predicate AllMissed(k: Kernel, net0: seq<Polyline>, net: seq<Polyline>, i: nat, a: Point, b: Point)
    requires Shaped(net0, net)
  {
    forall j: nat :: Candidate(net0, i, a, b, j) ==> k.meet(net[j], a, b).NoMeet?
  }

  /** `q` is a point some candidate row's meet with the probe a-b contributes. */
  ghost predicate Offered(k: Kernel, net0: seq<Polyline>, net: seq<Polyline>, i: nat, a: Point, b: Point, q: Point)
    requires Shaped(net0, net)
  {
    exists j: nat :: Candidate(net0, i, a, b, j) && q in Points(k.meet(net[j], a, b))
  }

  /** The rows the street probe a-b tests, in row order. */
  function Candidates(net0: seq<Polyline>, i: nat, a: Point, b: Point): (r: seq<nat>)
    requires forall j :: 0 <= j < |net0| ==> |net0[j]| > 0
    ensures forall j: nat :: j in r <==> Candidate(net0, i, a, b, j)
    ensures forall n :: 0 <= n < |r| ==> r[n] < |net0| && r[n] != i
  {
    var keep := (j: nat) => Candidate(net0, i, a, b, j);
    var r := Filter(Range(|net0|), keep);
    assert forall j: nat :: j in r <==> Candidate(net0, i, a, b, j) by {
      forall j: nat
        ensures j in r <==> Candidate(net0, i, a, b, j)
      {
        FilterMember(Range(|net0|), keep, j);
        if j < |net0| {
          assert Range(|net0|)[j] == j;
        }
      }
    }
    assert forall n :: 0 <= n < |r| ==> r[n] in r;
    r
  }

  /** The meets of the candidate rows with the probe a-b, in row order. */
  function MeetsOf(k: Kernel, net: seq<Polyline>, cands: seq<nat>, a: Point, b: Point): (r: seq<Meet>)
    requires forall n :: 0 <= n < |cands| ==> cands[n] < |net|
    ensures |r| == |cands|
    ensures forall n :: 0 <= n < |cands| ==> r[n] == k.meet(net[cands[n]], a, b)
  {
    seq(|cands|, n requires 0 <= n < |cands| => k.meet(net[cands[n]], a, b))
  }

  /** The points collected from a list of meets (`true_int`), in order. */
  function Collected(meets: seq<Meet>): (r: seq<Point>)
  {
    Flatten(seq(|meets|, n requires 0 <= n < |meets| => Points(meets[n])))
  }

  /** A point is collected exactly when one of the meets contributes it. */
  lemma CollectedMember(meets: seq<Meet>, q: Point)
    ensures q in Collected(meets) <==> exists n :: 0 <= n < |meets| && q in Points(meets[n])
  {
    var parts := seq(|meets|, n requires 0 <= n < |meets| => Points(meets[n]));
    FlattenContents(parts);
    if q in Collected(meets) {
      var n :| 0 <= n < |parts| && q in parts[n];
      assert q in Points(meets[n]);
    }
    if exists n :: 0 <= n < |meets| && q in Points(meets[n]) {
      var n :| 0 <= n < |meets| && q in Points(meets[n]);
      assert q in parts[n];
    }
  }

  /** extend_line: probe from the end of the working line towards the
      streets (other than row `i`) whose original box meets the probe's box,
      testing their current geometry. Nothing met: `Missed`. Something met:
      the nearest of the collected points is appended, and if no point was
      collected the source's indexing of the empty list fails. */
  function ExtendStreet(k: Kernel, net0: seq<Polyline>, i: nat, w: Work, tol: real): (r: Result<Outcome, SnapError>)
    requires Shaped(net0, w.net) && i < |net0|
    requires |w.coords| >= 2
    ensures ProbeBase(w.coords).Failure? <==> r == Failure(ShortProbe)
    ensures r.Failure? ==> r.error == ShortProbe || r.error == NoPointOnOverlap
    ensures r.Success? && r.value.Extended? ==> Grown(k, i, w, r.value.w) && |r.value.w.coords| == |w.coords| + 1
  {
    var probe :- ProbeOf(k, w.coords, tol);
    var meets := MeetsOf(k, w.net, Candidates(net0, i, probe.0, probe.1), probe.0, probe.1);
    if forall n :: 0 <= n < |meets| ==> meets[n].NoMeet? then Success(Missed)
    else
      var pts := Collected(meets);
      if |pts| == 0 then Failure(NoPointOnOverlap)
      else Success(Extended(Accept(k, w, i, FirstNearest(pts, Last(w.coords)))))
  }

  /** The candidate rows all miss exactly when every collected meet is empty. */
  lemma AllMissedMeets(k: Kernel, net0: seq<Polyline>, net: seq<Polyline>, i: nat, a: Point, b: Point)
    requires Shaped(net0, net)
    ensures var meets := MeetsOf(k, net, Candidates(net0, i, a, b), a, b);
            AllMissed(k, net0, net, i, a, b) <==> forall n :: 0 <= n < |meets| ==> meets[n].NoMeet?
  {
    var cands := Candidates(net0, i, a, b);
    var meets := MeetsOf(k, net, cands, a, b);
    if forall n :: 0 <= n < |meets| ==> meets[n].NoMeet? {
      forall j: nat | Candidate(net0, i, a, b, j)
        ensures k.meet(net[j], a, b).NoMeet?
      {
        var n :| 0 <= n < |cands| && cands[n] == j;
        assert meets[n] == k.meet(net[j], a, b);
      }
    }
    if AllMissed(k, net0, net, i, a, b) {
      forall n | 0 <= n < |meets|
        ensures meets[n].NoMeet?
      {
        assert cands[n] in cands;
      }
    }
  }

  /** A point is offered exactly when it is among the collected points. */
  lemma OfferedCollected(k: Kernel, net0: seq<Polyline>, net: seq<Polyline>, i: nat, a: Point, b: Point, q: Point)
    requires Shaped(net0, net)
    ensures Offered(k, net0, net, i, a, b, q) <==> q in Collected(MeetsOf(k, net, Candidates(net0, i, a, b), a, b))
  {
    var cands := Candidates(net0, i, a, b);
    var meets := MeetsOf(k, net, cands, a, b);
    CollectedMember(meets, q);
    if Offered(k, net0, net, i, a, b, q) {
      var j: nat :| Candidate(net0, i, a, b, j) && q in Points(k.meet(net[j], a, b));
      var n :| 0 <= n < |cands| && cands[n] == j;
      assert q in Points(meets[n]);
    }
    if q in Collected(meets) {
      var n :| 0 <= n < |meets| && q in Points(meets[n]);
      assert cands[n] in cands;
    }
  }

  /** The street probe misses exactly when no candidate row meets the probe. */
  lemma ExtendStreetMisses(k: Kernel, net0: seq<Polyline>, i: nat, w: Work, tol: real, a: Point, b: Point)
    requires Shaped(net0, w.net) && i < |net0|
    requires |w.coords| >= 2
    requires ProbeOf(k, w.coords, tol) == Success((a, b))
    ensures ExtendStreet(k, net0, i, w, tol) == Success(Missed) <==> AllMissed(k, net0, w.net, i, a, b)
  {
    AllMissedMeets(k, net0, w.net, i, a, b);
  }

  /** The street probe fails exactly when some candidate row meets the probe
      but none offers a point. */
  lemma ExtendStreetFails(k: Kernel, net0: seq<Polyline>, i: nat, w: Work, tol: real, a: Point, b: Point)
    requires Shaped(net0, w.net) && i < |net0|
    requires |w.coords| >= 2
    requires ProbeOf(k, w.coords, tol) == Success((a, b))
    ensures ExtendStreet(k, net0, i, w, tol) == Failure(NoPointOnOverlap) <==>
              !AllMissed(k, net0, w.net, i, a, b) && forall q :: !Offered(k, net0, w.net, i, a, b, q)
  {
    var pts := Collected(MeetsOf(k, w.net, Candidates(net0, i, a, b), a, b));
    AllMissedMeets(k, net0, w.net, i, a, b);
    if |pts| > 0 {
      OfferedCollected(k, net0, w.net, i, a, b, pts[0]);
    } else {
      forall q
        ensures !Offered(k, net0, w.net, i, a, b, q)
      {
        OfferedCollected(k, net0, w.net, i, a, b, q);
      }
    }
  }

  /** When the street probe extends the line, it appends a point some candidate
      row offers, at least as near the line's end as any other offered point. */
  lemma ExtendStreetNearest(k: Kernel, net0: seq<Polyline>, i: nat, w: Work, tol: real, a: Point, b: Point)
    requires Shaped(net0, w.net) && i < |net0|
    requires |w.coords| >= 2
    requires ProbeOf(k, w.coords, tol) == Success((a, b))
    requires ExtendStreet(k, net0, i, w, tol).Success? && ExtendStreet(k, net0, i, w, tol).value.Extended?
    ensures exists p :: Offered(k, net0, w.net, i, a, b, p) && ExtendStreet(k, net0, i, w, tol).value.w == Accept(k, w, i, p)
              && forall q :: Offered(k, net0, w.net, i, a, b, q) ==> SqDist(p, Last(w.coords)) <= SqDist(q, Last(w.coords))
  {
    var pts := Collected(MeetsOf(k, w.net, Candidates(net0, i, a, b), a, b));
    var p := FirstNearest(pts, Last(w.coords));
    OfferedCollected(k, net0, w.net, i, a, b, p);
    forall q | Offered(k, net0, w.net, i, a, b, q)
      ensures SqDist(p, Last(w.coords)) <= SqDist(q, Last(w.coords))
    {
      OfferedCollected(k, net0, w.net, i, a, b, q);
      var n :| 0 <= n < |pts| && pts[n] == q;
    }
  }

  /** extend_line_edge: the same probe against the edge of the built-up
      area. An empty or mixed intersection leaves everything as it is; a
      collinear overlap has no point to take and fails; otherwise the
      point nearest the line's end is appended. */
  function ExtendEdge(k: Kernel, i: nat, w: Work, tol: real): (r: Result<Work, SnapError>)
    requires i < |w.net| && |w.coords| >= 2
    ensures ProbeOf(k, w.coords, tol).Failure? ==> r == Failure(ShortProbe)
    ensures ProbeOf(k, w.coords, tol).Success? ==>
              var m := k.meetEdge(ProbeOf(k, w.coords, tol).value.0, ProbeOf(k, w.coords, tol).value.1);
              && (r == Success(w) <==> m.NoMeet? || m.Mixed?)
              && (r.Failure? <==> m.Along?)
              && (r.Success? && r != Success(w) ==>
                    exists p :: p in Points(m) && r.value == Accept(k, w, i, p)
                      && forall q :: q in Points(m) ==> SqDist(p, Last(w.coords)) <= SqDist(q, Last(w.coords)))
    ensures r.Success? ==> Grown(k, i, w, r.value)
  {
    var probe :- ProbeOf(k, w.coords, tol);
    var m := k.meetEdge(probe.0, probe.1);
    if m.NoMeet? || m.Mixed? then Success(w)
    else if Points(m) == [] then Failure(NoPointOnOverlap)
    else Success(Accept(k, w, i, FirstNearest(Points(m), Last(w.coords))))
  }

  /** One end of a row: the street probe, and the edge probe only when the
      street probe met nothing. */
  function ExtendEnd(k: Kernel, net0: seq<Polyline>, i: nat, w: Work, tolStreet: real, tolEdge: real)
    : (r: Result<Work, SnapError>)
    requires Shaped(net0, w.net) && i < |net0|
    requires |w.coords| >= 2
    ensures ProbeBase(w.coords).Failure? <==> r == Failure(ShortProbe)
    ensures r.Success? ==> Grown(k, i, w, r.value)
    ensures ExtendStreet(k, net0, i, w, tolStreet).Failure? ==> r == Failure(ExtendStreet(k, net0, i, w, tolStreet).error)
    ensures ExtendStreet(k, net0, i, w, tolStreet) == Success(Missed) ==> r == ExtendEdge(k, i, w, tolEdge)
    ensures ExtendStreet(k, net0, i, w, tolStreet).Success? && ExtendStreet(k, net0, i, w, tolStreet).value.Extended? ==>
              r == Success(ExtendStreet(k, net0, i, w, tolStreet).value.w)
  {
    var o :- ExtendStreet(k, net0, i, w, tolStreet);
    if o.Missed? then ExtendEdge(k, i, w, tolEdge) else Success(o.w)
  }

  /** When no candidate street meets the street probe, the end is extended
      towards the built-up edge instead. */
  lemma EdgeUsedWhenStreetMissed(k: Kernel, net0: seq<Polyline>, i: nat, w: Work, ts: real, te: real, a: Point, b: Point)
    requires Shaped(net0, w.net) && i < |net0| && |w.coords| >= 2
    requires ProbeOf(k, w.coords, ts) == Success((a, b))
    requires AllMissed(k, net0, w.net, i, a, b)
    ensures ExtendEnd(k, net0, i, w, ts, te) == ExtendEdge(k, i, w, te)
  {
    ExtendStreetMisses(k, net0, i, w, ts, a, b);
  }

  /** Once some candidate street offers a point, the end is extended by an
      offered point nearest to it, and the edge probe is not consulted. */
  lemma StreetUsedWhenOffered(k: Kernel, net0: seq<Polyline>, i: nat, w: Work, ts: real, te: real, a: Point, b: Point, q: Point)
    requires Shaped(net0, w.net) && i < |net0| && |w.coords| >= 2
    requires ProbeOf(k, w.coords, ts) == Success((a, b))
    requires Offered(k, net0, w.net, i, a, b, q)
    ensures ExtendEnd(k, net0, i, w, ts, te).Success?
    ensures exists p :: Offered(k, net0, w.net, i, a, b, p) && ExtendEnd(k, net0, i, w, ts, te).value == Accept(k, w, i, p)
              && forall q' :: Offered(k, net0, w.net, i, a, b, q') ==> SqDist(p, Last(w.coords)) <= SqDist(q', Last(w.coords))
  {
    var j: nat :| Candidate(net0, i, a, b, j) && q in Points(k.meet(w.net[j], a, b));
    assert !AllMissed(k, net0, w.net, i, a, b);
    ExtendStreetMisses(k, net0, i, w, ts, a, b);
    ExtendStreetFails(k, net0, i, w, ts, a, b);
    ExtendStreetNearest(k, net0, i, w, ts, a, b);
  }

  /** `after` is `before` with at most one point appended to the working
      line; only row `i` of the network may change, and then to the grown
      line, which crosses no building. */
  predicate Grown(k: Kernel, i: nat, before: Work, after: Work)
  {
    && |after.net| == |before.net|
    && (forall j :: 0 <= j < |before.net| && j != i ==> after.net[j] == before.net[j])
    && (after.coords == before.coords
        || (|after.coords| == |before.coords| + 1 && after.coords[..|before.coords|] == before.coords))
    && (i < |before.net| ==>
          after.net[i] == before.net[i]
          || (after.net[i] == after.coords && |after.coords| == |before.coords| + 1 && !k.hitsBuilding(after.coords)))
  }

  /** The probe from either end of a row always starts inside the row's own
      original box, so the row is among the index's answers and excluding it
      by label never fails. */
  lemma OwnRowIsCandidate(k: Kernel, net0: seq<Polyline>, i: nat, l: Polyline, tol: real)
    requires (forall j :: 0 <= j < |net0| ==> |net0[j]| > 0) && i < |net0| && |net0[i]| >= 2
    requires l == net0[i] || l == Reverse(net0[i]) || (|l| == |net0[i]| + 1 && l[1..] == Reverse(net0[i]))
    requires ProbeBase(l).Success?
    ensures Meets(Bounds(net0[i]), SegmentBox(ProbeBase(l).value.1, k.extrapolate(ProbeBase(l).value.0, ProbeBase(l).value.1, tol)))
  {
    var o := net0[i];
    var base := ProbeBase(l).value;
    var box := SegmentBox(base.1, k.extrapolate(base.0, base.1, tol));
    var v: nat :| v < |o| && base.1 == o[v] by {
      if DuplicateEnd(l) {
        assert base.1 == l[|l| - 2];
        if l == o {
          assert base.1 == o[|o| - 2];
        } else if l == Reverse(o) {
          assert base.1 == o[1];
        } else {
          assert base.1 == l[1..][|l| - 3];
          assert base.1 == o[1];
        }
      } else {
        assert base.1 == l[|l| - 1];
        if l == o {
          assert base.1 == o[|o| - 1];
        } else if l == Reverse(o) {
          assert base.1 == o[0];
        } else {
          assert base.1 == l[1..][|l| - 2];
          assert base.1 == o[0];
        }
      }
    }
    assert Covers(box, base.1);
    assert Covers(Bounds(o), o[v]);
  }

  /** An end of row `i` is joined when some other row whose original box
      covers it currently touches it. */
  predicate Joined(k: Kernel, net0: seq<Polyline>, net: seq<Polyline>, i: nat, p: Point)
    requires Shaped(net0, net)
  {
    exists j :: 0 <= j < |net0| && j != i && Covers(Bounds(net0[j]), p) && k.touches(net[j], p)
  }

  /** A row never counts as its own neighbour: whatever row `i` currently
      holds does not change whether its ends are joined. */
  lemma JoinedIgnoresOwnRow(k: Kernel, net0: seq<Polyline>, net: seq<Polyline>, i: nat, g: Polyline, p: Point)
    requires Shaped(net0, net) && i < |net|
    ensures Joined(k, net0, net[i := g], i, p) <==> Joined(k, net0, net, i, p)
  {
    var net' := net[i := g];
    if Joined(k, net0, net, i, p) {
      JoinedElsewhere(k, net0, net, net', i, p);
    }
    if Joined(k, net0, net', i, p) {
      JoinedElsewhere(k, net0, net', net, i, p);
    }
  }

  /** Joining an end of row `i` depends only on the other rows. */
  lemma JoinedElsewhere(k: Kernel, net0: seq<Polyline>, a: seq<Polyline>, b: seq<Polyline>, i: nat, p: Point)
    requires Shaped(net0, a) && Shaped(net0, b)
    requires forall j :: 0 <= j < |a| && j != i ==> a[j] == b[j]
    requires Joined(k, net0, a, i, p)
    ensures Joined(k, net0, b, i, p)
  {
    var j :| 0 <= j < |net0| && j != i && Covers(Bounds(net0[j]), p) && k.touches(a[j], p);
    assert k.touches(b[j], p);
  }

  /** When the street probe reaches a street, the built-up edge plays no
      part: two kernels that differ only in `meetEdge` agree. */
  lemma EdgeUnusedWhenStreetMet(k: Kernel, k': Kernel, net0: seq<Polyline>, i: nat, w: Work, ts: real, te: real)
    requires Shaped(net0, w.net) && i < |net0| && |w.coords| >= 2
    requires k' == k.(meetEdge := k'.meetEdge)
    requires ExtendStreet(k, net0, i, w, ts).Success? ==> ExtendStreet(k, net0, i, w, ts).value.Extended?
    ensures ExtendEnd(k, net0, i, w, ts, te) == ExtendEnd(k', net0, i, w, ts, te)
  {
    assert ExtendStreet(k, net0, i, w, ts) == ExtendStreet(k', net0, i, w, ts);
  }

  /** A snapped row keeps every vertex of the original and adds at most one
      point at each end: the original, the original with a point appended,
      the reversed original with a point appended, or the reversed original
      with a point at each end. */
  predicate Extends(orig: Polyline, row: Polyline)
  {
    || row == orig
    || (|row| == |orig| + 1 && (row[..|orig|] == orig || row[..|orig|] == Reverse(orig)))
    || (|row| == |orig| + 2 && row[1..|orig| + 1] == Reverse(orig))
  }

  /** One iteration of the loop over rows: the four cases of which ends of
      row `i` are joined. When neither is, the end is extended first, then
      the working line (including a point a building vetoed) is reversed and
      the start is extended. */
  function SnapRow(k: Kernel, net0: seq<Polyline>, net: seq<Polyline>, i: nat, tolStreet: real, tolEdge: real)
    : (r: Result<seq<Polyline>, SnapError>)
    requires Shaped(net0, net) && i < |net0| && |net0[i]| >= 2 && net[i] == net0[i]
    ensures r.Success? ==> |r.value| == |net|
    ensures r.Success? ==> forall j :: 0 <= j < |net| && j != i ==> r.value[j] == net[j]
    ensures r.Success? ==> Extends(net0[i], r.value[i])
    ensures r.Success? && r.value[i] != net0[i] ==> !k.hitsBuilding(r.value[i])
    ensures Joined(k, net0, net, i, net0[i][0]) && Joined(k, net0, net, i, Last(net0[i])) ==> r == Success(net)
    ensures r.Success? && Joined(k, net0, net, i, net0[i][0]) && !Joined(k, net0, net, i, Last(net0[i])) ==>
              r.value[i] == net0[i] || (|r.value[i]| == |net0[i]| + 1 && r.value[i][..|net0[i]|] == net0[i])
    ensures r.Success? && !Joined(k, net0, net, i, net0[i][0]) && Joined(k, net0, net, i, Last(net0[i])) ==>
              r.value[i] == net0[i] || (|r.value[i]| == |net0[i]| + 1 && r.value[i][..|net0[i]|] == Reverse(net0[i]))
    ensures Joined(k, net0, net, i, net0[i][0]) && !Joined(k, net0, net, i, Last(net0[i])) ==>
              var e := ExtendEnd(k, net0, i, Work(net0[i], net), tolStreet, tolEdge);
              && (r.Success? <==> e.Success?)
              && (r.Success? ==> r.value == e.value.net)
    ensures !Joined(k, net0, net, i, net0[i][0]) && Joined(k, net0, net, i, Last(net0[i])) ==>
              var e := ExtendEnd(k, net0, i, Work(Reverse(net0[i]), net), tolStreet, tolEdge);
              && (r.Success? <==> e.Success?)
              && (r.Success? ==> r.value == e.value.net)
    ensures !Joined(k, net0, net, i, net0[i][0]) && !Joined(k, net0, net, i, Last(net0[i])) ==>
              var e1 := ExtendEnd(k, net0, i, Work(net0[i], net), tolStreet, tolEdge);
              && (r.Success? <==> e1.Success? && ExtendEnd(k, net0, i, Work(Reverse(e1.value.coords), e1.value.net), tolStreet, tolEdge).Success?)
              && (r.Success? ==> r.value == ExtendEnd(k, net0, i, Work(Reverse(e1.value.coords), e1.value.net), tolStreet, tolEdge).value.net)
  {
    var l := net0[i];
    var first := Joined(k, net0, net, i, l[0]);
    var second := Joined(k, net0, net, i, Last(l));
    if first && second then Success(net)
    else if first then
      var w :- ExtendEnd(k, net0, i, Work(l, net), tolStreet, tolEdge);
      Success(w.net)
    else if second then
      var w :- ExtendEnd(k, net0, i, Work(Reverse(l), net), tolStreet, tolEdge);
      assert w.net[i] != l ==> w.net[i][..|l|] == Reverse(l);
      Success(w.net)
    else
      var w1 :- ExtendEnd(k, net0, i, Work(l, net), tolStreet, tolEdge);
      var w2 :- ExtendEnd(k, net0, i, Work(Reverse(w1.coords), w1.net), tolStreet, tolEdge);
      BothEndsExtend(l, w1, w2, i);
      Success(w2.net)
  }

  /** The both-ends case of `SnapRow`, as a statement about the two probes. */
  lemma BothEndsExtend(l: Polyline, w1: Work, w2: Work, i: nat)
    requires i < |w1.net| && (w1.net[i] == l || w1.net[i] == w1.coords)
    requires w1.coords == l || (|w1.coords| == |l| + 1 && w1.coords[..|l|] == l)
    requires w1.net[i] == w1.coords ==> w1.coords == l || |w1.coords| == |l| + 1
    requires i < |w2.net|
    requires w2.net[i] == w1.net[i]
             || (w2.net[i] == w2.coords && |w2.coords| == |w1.coords| + 1 && w2.coords[..|w1.coords|] == Reverse(w1.coords))
    ensures Extends(l, w2.net[i])
  {
    if w2.net[i] == w1.net[i] {
      if w1.net[i] != l {
        assert w1.net[i][..|l|] == l;
      }
    } else if w1.coords == l {
      assert w2.net[i][..|l|] == Reverse(l);
    } else {
      var p := w1.coords[|l|];
      assert w1.coords == l + [p];
      ReverseAppend(l, p);
      assert w2.net[i][1..|l| + 1] == w2.coords[..|w1.coords|][1..] == Reverse(l);
    }
  }

  /** When both ends dangle, the point the first probe appended stays in the
      working line even if a building vetoed it: whatever row the second
      probe stores starts with that point, then the reversed original, then
      the point found at the start. */
  lemma VetoedPointKept(k: Kernel, net0: seq<Polyline>, net: seq<Polyline>, i: nat, ts: real, te: real, p: Point)
    requires Shaped(net0, net) && i < |net0| && |net0[i]| >= 2 && net[i] == net0[i]
    requires !Joined(k, net0, net, i, net0[i][0]) && !Joined(k, net0, net, i, Last(net0[i]))
    requires ExtendEnd(k, net0, i, Work(net0[i], net), ts, te).Success?
    requires ExtendEnd(k, net0, i, Work(net0[i], net), ts, te).value.coords == net0[i] + [p]
    requires SnapRow(k, net0, net, i, ts, te).Success?
    ensures var row := SnapRow(k, net0, net, i, ts, te).value[i];
            || row == ExtendEnd(k, net0, i, Work(net0[i], net), ts, te).value.net[i]
            || (|row| == |net0[i]| + 2 && row[..|net0[i]| + 1] == [p] + Reverse(net0[i]))
  {
    var l := net0[i];
    var w1 := ExtendEnd(k, net0, i, Work(l, net), ts, te).value;
    ReverseAppend(l, p);
    var w2 := ExtendEnd(k, net0, i, Work(Reverse(w1.coords), w1.net), ts, te).value;
    assert Grown(k, i, Work(Reverse(w1.coords), w1.net), w2);
  }

  /** Every row before `n` is what its own turn of the loop made of it: the
      turn of row `j` sees the rows before `j` as they ended and the rows
      from `j` on as they began. */
  ghost predicate TurnsTaken(k: Kernel, net0: seq<Polyline>, net: seq<Polyline>, n: nat, ts: real, te: real)
    requires forall j :: 0 <= j < |net0| ==> |net0[j]| >= 2
    requires |net| == |net0| && n <= |net0|
  {
    forall j :: 0 <= j < n ==>
      && SnapRow(k, net0, net[..j] + net0[j..], j, ts, te).Success?
      && SnapRow(k, net0, net[..j] + net0[j..], j, ts, te).value[j] == net[j]
  }

  /** The pass stops at the turn of row `n` with error `e`: the earlier turns
      all succeeded and left `net`, and the turn of row `n` on `net` fails. */
  ghost predicate FailsAtTurn(k: Kernel, net0: seq<Polyline>, net: seq<Polyline>, n: nat, ts: real, te: real, e: SnapError)
    requires forall j :: 0 <= j < |net0| ==> |net0[j]| >= 2
  {
    && n < |net0| && |net| == |net0|
    && (forall j :: n <= j < |net0| ==> net[j] == net0[j])
    && TurnsTaken(k, net0, net, n, ts, te)
    && SnapRow(k, net0, net, n, ts, te) == Failure(e)
  }

  /** Taking the turn of row `n` keeps the earlier turns as they were. */
  lemma TakeTurn(k: Kernel, net0: seq<Polyline>, net: seq<Polyline>, n: nat, ts: real, te: real)
    requires forall j :: 0 <= j < |net0| ==> |net0[j]| >= 2
    requires |net| == |net0| && n < |net0|
    requires forall j :: n <= j < |net0| ==> net[j] == net0[j]
    requires TurnsTaken(k, net0, net, n, ts, te)
    requires SnapRow(k, net0, net, n, ts, te).Success?
    ensures TurnsTaken(k, net0, SnapRow(k, net0, net, n, ts, te).value, n + 1, ts, te)
  {
    var net' := SnapRow(k, net0, net, n, ts, te).value;
    forall j | 0 <= j < n + 1
      ensures SnapRow(k, net0, net'[..j] + net0[j..], j, ts, te).Success?
      ensures SnapRow(k, net0, net'[..j] + net0[j..], j, ts, te).value[j] == net'[j]
    {
      if j == n {
        assert net'[..n] + net0[n..] == net;
      } else {
        assert net'[..j] == net[..j];
        assert net'[j] == net[j];
      }
    }
  }

  /** The snapping loop over all rows in order. Each row's own ends are
      read from the original line (a row changes only at its own turn). */
  method Snap(k: Kernel, net0: seq<Polyline>, tolStreet: real, tolEdge: real) returns (r: Result<seq<Polyline>, SnapError>)
    requires forall j :: 0 <= j < |net0| ==> |net0[j]| >= 2
    ensures r.Success? ==> |r.value| == |net0|
    ensures r.Success? ==> forall j :: 0 <= j < |net0| ==> Extends(net0[j], r.value[j])
    ensures r.Success? ==> forall j :: 0 <= j < |net0| && r.value[j] != net0[j] ==> !k.hitsBuilding(r.value[j])
    ensures r.Success? ==> forall j :: 0 <= j < |net0| ==>
              && SnapRow(k, net0, r.value[..j] + net0[j..], j, tolStreet, tolEdge).Success?
              && SnapRow(k, net0, r.value[..j] + net0[j..], j, tolStreet, tolEdge).value[j] == r.value[j]
    ensures r.Failure? ==> exists n: nat, net: seq<Polyline> :: FailsAtTurn(k, net0, net, n, tolStreet, tolEdge, r.error)
  {
    var net := net0;
    var i := 0;
    while i < |net0|
      invariant i <= |net0| && |net| == |net0|
      invariant forall j :: i <= j < |net0| ==> net[j] == net0[j]
      invariant forall j :: 0 <= j < i ==> Extends(net0[j], net[j])
      invariant forall j :: 0 <= j < i && net[j] != net0[j] ==> !k.hitsBuilding(net[j])
      invariant TurnsTaken(k, net0, net, i, tolStreet, tolEdge)
    {
      var row := SnapRow(k, net0, net, i, tolStreet, tolEdge);
      if row.Failure? {
        assert FailsAtTurn(k, net0, net, i, tolStreet, tolEdge, row.error);
        return Failure(row.error);
      }
      TakeTurn(k, net0, net, i, tolStreet, tolEdge);
      net := row.value;
      i := i + 1;
    }
    r := Success(net);
  }
}

=== FILE: tessellation.dfy ===
/** The selection rules of `tessellation`: which Voronoi ridges become
    lines, how a building's outline becomes the seed points, how a cell the
    spatial join left without an id is given the id of the neighbour it
    shares most boundary with, and which part of a clipped cell is kept.
    The Voronoi diagram, polygonizing, the spatial join and all shapely
    measurements are inputs to these rules. */
module Tessellation {
  import opened Results
  import opened Seqs
  import opened Geometry

  /** A Voronoi ridge: indices of its vertices, -1 standing for the vertex
      at infinity. */
  type Ridge = seq<int>

  /** The ridges turned into lines: those with no vertex at infinity, in
      their original order. */
  function FiniteRidges(ridges: seq<Ridge>): (r: seq<Ridge>)
    ensures forall x :: x in r ==> x in ridges && -1 !in x
  {
    Filter(ridges, (x: Ridge) => -1 !in x)
  }

  /** Every finite ridge is kept, as often as it occurs; no infinite ridge is. */
  lemma FiniteRidgesExact(ridges: seq<Ridge>, x: Ridge)
    ensures multiset(FiniteRidges(ridges))[x] == if -1 in x then 0 else multiset(ridges)[x]
  {
    FilterCount(ridges, (x: Ridge) => -1 !in x, x);
  }

  /** The filter keeps the ridges' order: filtering a concatenation is the
      concatenation of the filtered parts. */
  lemma FiniteRidgesInOrder(a: seq<Ridge>, b: seq<Ridge>)
    ensures FiniteRidges(a + b) == FiniteRidges(a) + FiniteRidges(b)
  {
    FilterAppend(a, b, (x: Ridge) => -1 !in x);
  }

  /** The boundary of a building outline, by geometry type. */
  datatype Boundary =
    | LineBoundary(coords: seq<Point>)
    | MultiLineBoundary(lines: seq<seq<Point>>)
    | OtherBoundary

  datatype PointizeError = UnexpectedBoundary

  /** pointize: every vertex of every boundary line, line after line, as
      one MultiPoint; any other boundary type raises. */
  function Pointize(b: Boundary): (r: Result<seq<Point>, PointizeError>)
    ensures r.Failure? <==> b.OtherBoundary?
    ensures b.LineBoundary? ==> r == Success(b.coords)
    ensures b.MultiLineBoundary? ==> r.Success? && |r.value| == TotalLength(b.lines)
    ensures b.MultiLineBoundary? ==>
              forall p :: p in r.value <==> exists k :: 0 <= k < |b.lines| && p in b.lines[k]
  {
    match b
    case LineBoundary(coords) => Success(coords)
    case MultiLineBoundary(lines) =>
      FlattenContents(lines);
      Success(Flatten(lines))
    case OtherBoundary => Failure(UnexpectedBoundary)
  }

  /** The points keep the order of the lines: the points of two groups of
      lines are those of the first group followed by those of the second. */
  lemma PointizeInOrder(a: seq<seq<Point>>, b: seq<seq<Point>>)
    ensures Pointize(MultiLineBoundary(a + b)).value
         == Pointize(MultiLineBoundary(a)).value + Pointize(MultiLineBoundary(b)).value
  {
    FlattenAppend(a, b);
  }

  /** The ids of a cell's neighbours that have one (NaN dropped), in the
      order the index lists the neighbours. */
  function NeighbourIds(ids: seq<Option<int>>, nbrs: seq<nat>): (r: seq<int>)
    requires forall k :: 0 <= k < |nbrs| ==> nbrs[k] < |ids|
    ensures forall x :: x in r <==> exists k :: 0 <= k < |nbrs| && ids[nbrs[k]] == Some(x)
  {
    if |nbrs| == 0 then []
    else
      var init := NeighbourIds(ids, nbrs[..|nbrs| - 1]);
      var n := nbrs[|nbrs| - 1];
      assert forall k :: 0 <= k < |nbrs| - 1 ==> nbrs[..|nbrs| - 1][k] == nbrs[k];
      if ids[n].Some? then init + [ids[n].value] else init
  }

  /** The ids follow the neighbour list: listing more neighbours appends
      their ids, in order, with repeats kept. */
  lemma {:induction false} NeighbourIdsAppend(ids: seq<Option<int>>, a: seq<nat>, b: seq<nat>)
    requires forall k :: 0 <= k < |a| ==> a[k] < |ids|
    requires forall k :: 0 <= k < |b| ==> b[k] < |ids|
    ensures forall k :: 0 <= k < |a + b| ==> (a + b)[k] < |ids|
    ensures NeighbourIds(ids, a + b) == NeighbourIds(ids, a) + NeighbourIds(ids, b)
  {
    assert forall k :: 0 <= k < |a + b| ==> (a + b)[k] < |ids| by {
      forall k | 0 <= k < |a + b|
        ensures (a + b)[k] < |ids|
      {
        if k < |a| {
          assert (a + b)[k] == a[k];
        } else {
          assert (a + b)[k] == b[k - |a|];
        }
      }
    }
    if |b| == 0 {
      assert a + b == a;
    } else {
      var b' := b[..|b| - 1];
      assert (a + b)[..|a + b| - 1] == a + b';
      NeighbourIdsAppend(ids, a, b');
    }
  }

  /** One neighbour contributes its id when it has one, and nothing when NaN. */
  lemma NeighbourIdsSingle(ids: seq<Option<int>>, n: nat)
    requires n < |ids|
    ensures NeighbourIds(ids, [n]) == if ids[n].Some? then [ids[n].value] else []
  {
    assert [n][..0] == [];
  }

  /** Shared boundary between cell `c` and all cells now carrying `id`,
      summed over the cells `0 .. m-1`. */
  function ScoreUpTo(ids: seq<Option<int>>, shared: (nat, nat) -> real, c: nat, id: int, m: nat): real
    requires m <= |ids|
  {
    if m == 0 then 0.0
    else ScoreUpTo(ids, shared, c, id, m - 1) + (if ids[m - 1] == Some(id) then shared(c, m - 1) else 0.0)
  }

  /** The length cell `c` shares with the cells of id `id`: the sum over the
      `voronoi_with_id[unique_id] == i` subset. */
  function Score(ids: seq<Option<int>>, shared: (nat, nat) -> real, c: nat, id: int): real
  {
    ScoreUpTo(ids, shared, c, id, |ids|)
  }

  /** Only the cells carrying `id` contribute to its score. */
  lemma {:induction false} ScoreOnlyCountsId(ids: seq<Option<int>>, ids': seq<Option<int>>, shared: (nat, nat) -> real,
                                             c: nat, id: int, m: nat)
    requires m <= |ids| && |ids'| == |ids|
    requires forall s :: 0 <= s < m ==> (ids[s] == Some(id) <==> ids'[s] == Some(id))
    ensures ScoreUpTo(ids, shared, c, id, m) == ScoreUpTo(ids', shared, c, id, m)
  {
    if m > 0 {
      ScoreOnlyCountsId(ids, ids', shared, c, id, m - 1);
    }
  }

  datatype VoteError = NoJoinedNeighbour

  /** The scores of the candidate ids, in candidate order. */
  function Scores(ids: seq<Option<int>>, shared: (nat, nat) -> real, c: nat, cands: seq<int>): (r: seq<real>)
    ensures |r| == |cands|
    ensures forall j :: 0 <= j < |cands| ==> r[j] == Score(ids, shared, c, cands[j])
  {
    seq(|cands|, j requires 0 <= j < |cands| => Score(ids, shared, c, cands[j]))
  }

  /** The id an unjoined cell `c` receives: among the ids of its neighbours,
      the one with the most shared boundary, the first listed on ties; with
      no neighbour carrying an id, `max` of an empty dict raises. */
  function Vote(ids: seq<Option<int>>, nbrs: seq<nat>, shared: (nat, nat) -> real, c: nat): (r: Result<int, VoteError>)
    requires forall k :: 0 <= k < |nbrs| ==> nbrs[k] < |ids|
    ensures r.Success? ==> r.value in NeighbourIds(ids, nbrs)
  {
    var cands := Dedup(NeighbourIds(ids, nbrs));
    if |cands| == 0 then Failure(NoJoinedNeighbour)
    else Success(cands[FirstArgMax(Scores(ids, shared, c, cands))])
  }

  /** The vote fails exactly when no neighbour carries an id. */
  lemma VoteFails(ids: seq<Option<int>>, nbrs: seq<nat>, shared: (nat, nat) -> real, c: nat)
    requires forall k :: 0 <= k < |nbrs| ==> nbrs[k] < |ids|
    ensures Vote(ids, nbrs, shared, c).Failure? <==> forall k :: 0 <= k < |nbrs| ==> ids[nbrs[k]].None?
  {
    var all := NeighbourIds(ids, nbrs);
    if exists k :: 0 <= k < |nbrs| && ids[nbrs[k]].Some? {
      var k :| 0 <= k < |nbrs| && ids[nbrs[k]].Some?;
      assert ids[nbrs[k]].value in all;
      assert ids[nbrs[k]].value in Dedup(all);
    }
  }

  /** The id the vote gives is one a neighbour carries. */
  lemma VoteFromNeighbour(ids: seq<Option<int>>, nbrs: seq<nat>, shared: (nat, nat) -> real, c: nat)
    requires forall k :: 0 <= k < |nbrs| ==> nbrs[k] < |ids|
    requires Vote(ids, nbrs, shared, c).Success?
    ensures exists k :: 0 <= k < |nbrs| && ids[nbrs[k]] == Some(Vote(ids, nbrs, shared, c).value)
  {
  }

  /** No neighbour's id has more shared boundary than the winner. */
  lemma VoteIsMaximal(ids: seq<Option<int>>, nbrs: seq<nat>, shared: (nat, nat) -> real, c: nat)
    requires forall k :: 0 <= k < |nbrs| ==> nbrs[k] < |ids|
    requires Vote(ids, nbrs, shared, c).Success?
    ensures forall x :: x in NeighbourIds(ids, nbrs) ==>
              Score(ids, shared, c, x) <= Score(ids, shared, c, Vote(ids, nbrs, shared, c).value)
  {
    var cands := Dedup(NeighbourIds(ids, nbrs));
    var scores := Scores(ids, shared, c, cands);
    var w := FirstArgMax(scores);
    forall x | x in NeighbourIds(ids, nbrs)
      ensures Score(ids, shared, c, x) <= scores[w]
    {
      var j :| 0 <= j < |cands| && cands[j] == x;
    }
  }

  /** Ties go to the id listed first: every id met earlier among the
      neighbours has strictly less shared boundary than the winner. */
  lemma VoteFirstOnTies(ids: seq<Option<int>>, nbrs: seq<nat>, shared: (nat, nat) -> real, c: nat)
    requires forall k :: 0 <= k < |nbrs| ==> nbrs[k] < |ids|
    requires Vote(ids, nbrs, shared, c).Success?
    ensures var all := NeighbourIds(ids, nbrs);
            var v := Vote(ids, nbrs, shared, c).value;
            forall x :: (x in all && IndexOf(all, x) < IndexOf(all, v)) ==> Score(ids, shared, c, x) < Score(ids, shared, c, v)
  {
    var all := NeighbourIds(ids, nbrs);
    var cands := Dedup(all);
    var scores := Scores(ids, shared, c, cands);
    var w := FirstArgMax(scores);
    forall x | x in all && IndexOf(all, x) < IndexOf(all, cands[w])
      ensures Score(ids, shared, c, x) < scores[w]
    {
      var j :| 0 <= j < |cands| && cands[j] == x;
    }
  }

  /** The ids as they stand when the loop reaches cell `c`: cells before
      `c` as they ended, the rest as the spatial join left them. */
  function Snapshot(r: seq<Option<int>>, ids0: seq<Option<int>>, c: nat): (s: seq<Option<int>>)
    requires c <= |r| == |ids0|
    ensures |s| == |ids0|
    ensures forall k :: 0 <= k < c ==> s[k] == r[k]
    ensures forall k :: c <= k < |ids0| ==> s[k] == ids0[k]
  {
    r[..c] + ids0[c..]
  }

  /** Before the loop the table is as the join left it; after the last cell
      it is the loop's result. */
  lemma SnapshotEnds(r: seq<Option<int>>, ids0: seq<Option<int>>)
    requires |r| == |ids0|
    ensures Snapshot(r, ids0, 0) == ids0
    ensures Snapshot(r, ids0, |r|) == r
  {
    assert r[..0] + ids0[0..] == ids0;
    assert r[..|r|] + ids0[|r|..] == r;
  }

  /** A cell `c` that the loop cannot resolve: unjoined, and every neighbour
      is itself unjoined and not yet reached. */
  ghost predicate Stranded(ids0: seq<Option<int>>, nbrs: seq<seq<nat>>, c: nat)
    requires |nbrs| == |ids0|
  {
    c < |ids0| && ids0[c].None? && forall k :: 0 <= k < |nbrs[c]| ==> c <= nbrs[c][k] < |ids0| && ids0[nbrs[c][k]].None?
  }

  /** When the loop reaches an unjoined cell `c`, its vote fails exactly
      when the cell is stranded. */
  lemma StrandedIffVoteFails(ids: seq<Option<int>>, ids0: seq<Option<int>>, nbrs: seq<seq<nat>>,
                             shared: (nat, nat) -> real, c: nat)
    requires |nbrs| == |ids0| == |ids| && c < |ids0| && ids0[c].None?
    requires forall k :: 0 <= k < |nbrs[c]| ==> nbrs[c][k] < |ids0|
    requires forall k :: c <= k < |ids0| ==> ids[k] == ids0[k]
    requires forall k :: 0 <= k < c ==> ids[k].Some?
    ensures Vote(ids, nbrs[c], shared, c).Failure? <==> Stranded(ids0, nbrs, c)
  {
    VoteFails(ids, nbrs[c], shared, c);
    if Stranded(ids0, nbrs, c) {
      forall k | 0 <= k < |nbrs[c]|
        ensures ids[nbrs[c][k]].None?
      {
        assert ids[nbrs[c][k]] == ids0[nbrs[c][k]];
      }
    } else {
      var k :| 0 <= k < |nbrs[c]| && !(c <= nbrs[c][k] < |ids0| && ids0[nbrs[c][k]].None?);
      assert ids[nbrs[c][k]].Some?;
    }
  }

  /** Giving cell `c` an id does not change what earlier cells saw. */
  lemma SnapshotIgnoresLater(ids: seq<Option<int>>, ids0: seq<Option<int>>, c: nat, x: Option<int>, k: nat)
    requires k <= c < |ids| == |ids0|
    requires ids[c] == ids0[c]
    ensures Snapshot(ids[c := x], ids0, k) == Snapshot(ids, ids0, k)
  {
    assert ids[c := x][..k] == ids[..k];
  }

  /** The unjoined-cell loop: every cell the join left without an id, in
      row order, takes the vote of its neighbours, with ids given to earlier
      cells already counting. `nbrs[c]` lists what the spatial index returns
      for cell `c`; `shared(c, s)` is the length of their common boundary. */
  method ResolveUnjoined(ids0: seq<Option<int>>, nbrs: seq<seq<nat>>, shared: (nat, nat) -> real)
    returns (r: Result<seq<Option<int>>, VoteError>)
    requires |nbrs| == |ids0|
    requires forall c, k :: 0 <= c < |nbrs| && 0 <= k < |nbrs[c]| ==> nbrs[c][k] < |ids0|
    ensures r.Failure? <==> exists c :: Stranded(ids0, nbrs, c)
    ensures r.Success? ==> |r.value| == |ids0|
    ensures r.Success? ==> forall c :: 0 <= c < |ids0| ==> r.value[c].Some?
    ensures r.Success? ==> forall c :: 0 <= c < |ids0| && ids0[c].Some? ==> r.value[c] == ids0[c]
    ensures r.Success? ==> forall c :: 0 <= c < |ids0| && ids0[c].None? ==>
              Vote(Snapshot(r.value, ids0, c), nbrs[c], shared, c) == Success(r.value[c].value)
  {
    var ids := ids0;
    var c := 0;
    while c < |ids0|
      invariant c <= |ids0| && |ids| == |ids0|
      invariant forall k :: c <= k < |ids0| ==> ids[k] == ids0[k]
      invariant forall k :: 0 <= k < c ==> ids[k].Some?
      invariant forall k :: 0 <= k < c && ids0[k].Some? ==> ids[k] == ids0[k]
      invariant forall k :: 0 <= k < c && ids0[k].None? ==>
                  Vote(Snapshot(ids, ids0, k), nbrs[k], shared, k) == Success(ids[k].value)
      invariant forall k :: 0 <= k < c ==> !Stranded(ids0, nbrs, k)
    {
      if ids0[c].None? {
        var v := Vote(ids, nbrs[c], shared, c);
        StrandedIffVoteFails(ids, ids0, nbrs, shared, c);
        if v.Failure? {
          return Failure(v.error);
        }
        assert ids == Snapshot(ids, ids0, c);
        ghost var before := ids;
        ids := ids[c := Some(v.value)];
        forall k | 0 <= k < c + 1 && ids0[k].None?
          ensures Vote(Snapshot(ids, ids0, k), nbrs[k], shared, k) == Success(ids[k].value)
        {
          SnapshotIgnoresLater(before, ids0, c, Some(v.value), k);
        }
      } else {
        assert !Stranded(ids0, nbrs, c);
      }
      c := c + 1;
    }
    r := Success(ids);
  }

  /** The intersection of a cell with the built-up area: several parts, or
      a geometry kept as it is. */
  datatype Clipped<G> = MultiPart(parts: seq<G>) | Single(g: G)

  datatype ClipError = NoParts

  /** The largest-area part of a multipart clip, the first on ties; an
      empty part list makes `max` raise. */
  function KeepLargest<G>(clip: Clipped<G>, area: G -> real): (r: Result<G, ClipError>)
    ensures r.Failure? <==> clip.MultiPart? && |clip.parts| == 0
    ensures clip.Single? ==> r == Success(clip.g)
    ensures clip.MultiPart? && r.Success? ==>
              exists k :: 0 <= k < |clip.parts| && clip.parts[k] == r.value
                && (forall j :: 0 <= j < |clip.parts| ==> area(clip.parts[j]) <= area(r.value))
                && (forall j :: 0 <= j < k ==> area(clip.parts[j]) < area(r.value))
  {
    match clip
    case Single(g) => Success(g)
    case MultiPart(parts) =>
      if |parts| == 0 then Failure(NoParts)
      else
        var areas := seq(|parts|, j requires 0 <= j < |parts| => area(parts[j]));
        var k := FirstArgMax(areas);
        assert forall j :: 0 <= j < |parts| ==> areas[j] == area(parts[j]);
        Success(parts[k])
  }

  /** The cutting loop: each selected cell is replaced by the kept part of
      its intersection with the built-up area, computed from the cell as it
      was before the loop; the other cells are untouched. */
  method CutCells<G>(cells: seq<G>, selected: seq<nat>, clip: G -> Clipped<G>, area: G -> real)
    returns (r: Result<seq<G>, ClipError>)
    requires forall k :: 0 <= k < |selected| ==> selected[k] < |cells|
    ensures r.Failure? <==> exists k :: 0 <= k < |selected| && KeepLargest(clip(cells[selected[k]]), area).Failure?
    ensures r.Success? ==> |r.value| == |cells|
    ensures r.Success? ==> forall k :: 0 <= k < |selected| ==>
              r.value[selected[k]] == KeepLargest(clip(cells[selected[k]]), area).value
    ensures r.Success? ==> forall j :: 0 <= j < |cells| && j !in selected ==> r.value[j] == cells[j]
  {
    var out := cells;
    var k := 0;
    while k < |selected|
      invariant k <= |selected| && |out| == |cells|
      invariant forall i :: 0 <= i < k ==> KeepLargest(clip(cells[selected[i]]), area).Success?
      invariant forall i :: 0 <= i < k ==> out[selected[i]] == KeepLargest(clip(cells[selected[i]]), area).value
      invariant forall j :: 0 <= j < |cells| && j !in selected[..k] ==> out[j] == cells[j]
    {
      var kept := KeepLargest(clip(cells[selected[k]]), area);
      if kept.Failure? {
        return Failure(kept.error);
      }
      out := out[selected[k] := kept.value];
      assert selected[..k + 1] == selected[..k] + [selected[k]];
      k := k + 1;
    }
    assert selected[..k] == selected;
    r := Success(out);
  }
}
